=== FILE: README.md ===
# LaTeX math to image converter: a Dafny model of its text handling

The converter has two versions of one interactive script. `main.py` reads a
`.tex` file and finds every `$…$` and `$$…$$` equation with its offsets. It
renders each equation to a PNG image. In "replace" mode it also writes a copy
of the document in which each rendered equation is replaced by an
`\includegraphics` command, and it makes sure that copy loads the `graphicx`
package. `_main.py` is the older version. It returns the equations as plain
strings: the display ones first, then the inline ones.

This project models the deterministic string logic around the rendering:

- the four delimiter regexes, and the left-to-right `finditer`/`findall` scan over them;
- `extract_equations_with_spans`;
- the replacement texts and the descending-order splice of the replace mode;
- `add_graphicx_package`;
- `extract_equations_from_tex` of `_main.py`;
- the manual-input prefix check;
- the image file names.

Each regex is written twice:

- as a declarative "matches from `p` to `e`" predicate (`Patterns.IsMatch`);
- as a hand-written scanner (`Patterns.MatchEnd`).

The two are proved to agree. The scan (`Scanner.FindIter`) is characterised
by a predicate that pins it down uniquely: matches in order, each one
leftmost. Strings are `seq<char>` and offsets are `nat`. Reading the file is
left to the caller, so every operation takes the text itself.

Modules, one per file:

| module | file | what it holds |
|---|---|---|
| `Options` | options.dfy | the option type |
| `Text` | text.dfy | Python's `in`, `find`, `startswith` and `replace` |
| `Decimal` | decimal.dfy | `str(n)` for the 1-based equation numbers |
| `Sorting` | sorting.dfy | `list.sort(key=…)` |
| `Patterns` | patterns.dfy | the four regexes |
| `Scanner` | scanner.dfy | `finditer` / `findall` |
| `SpanExtractor` | span_extractor.dfy | `extract_equations_with_spans` |
| `Interactive` | interactive.dfy | file names and the input check |
| `Splice` | splice.dfy | replacement texts and the splice |
| `Preamble` | preamble.dfy | `add_graphicx_package` |
| `LegacyExtractor` | legacy_extractor.dfy | `_main.py` extraction |

## Model

| member | source | states |
|---|---|---|
| Patterns.MatchEnd | main.py:88-92 | For the two patterns here and the two at _main.py:97 and _main.py:99, the scanner for a delimiter regex succeeds at `p` with end `e` exactly when the declarative predicate holds. The predicate says: an unescaped opening delimiter, a non-greedy interior that may not start a closing delimiter, then the unescaped closing delimiter. A match is at least two delimiters long. |
| Patterns.MatchDeterministic | main.py:88-92 | A match of one pattern is determined by its start. |
| Scanner.FindIter | main.py:95 | The scan from `i` returns matches in order and without overlap. Each starts at or after `i`, is a match of the pattern, and lies inside the text. |
| Scanner.FindIterLeftmost | main.py:95 | Every position from `i` on where the pattern would match lies inside a reported match. This is the leftmost-scan property of `finditer`. |
| Scanner.LeftmostMatchesUnique | main.py:95 | Any sequence with the in-order and leftmost properties equals the scan, so those properties define `finditer`. |
| Scanner.NoDollarNoMatches | main.py:88-92 | A text without `$` has no match of any of the patterns. |
| SpanExtractor.DisplaySpansCover | main.py:95-98 | Every position where the display regex matches lies inside a display entry, so no display match is missed. |
| SpanExtractor.DisplaySpans | main.py:95-98 | Every display entry is a display match carrying `content[s:e]`. The entries are in ascending order without overlap, and each is non-empty. |
| SpanExtractor.ContainedInAny | main.py:106-110 | The inner loop reports true exactly when some collected entry has `start <= s` and `e <= end`. |
| SpanExtractor.CollectInline | main.py:103-112 | The loop only appends: the entries collected before stay in front, and each inline match adds at most one entry. |
| SpanExtractor.CollectIsFilter | main.py:103-112 | The loop checks each inline match against every collected entry, earlier inline entries included. It appends exactly the inline matches that no display entry contains: earlier inline entries end before the next match starts, so they never contain it. |
| SpanExtractor.KeepUncoveredMembers | main.py:103-112 | An entry is kept by the reference filter exactly when it comes from an inline match that no display entry contains. |
| SpanExtractor.KeptInline | main.py:103-112 | The kept inline entries are inline matches carrying `content[s:e]`, in ascending order without overlap. |
| SpanExtractor.ExtractEquationsWithSpans | main.py:94-115 | Every returned tuple is a match of its kind with `0 <= s <= e <= len(content)` and `text == content[s:e]`. The list is sorted by start. As a multiset it is the display entries plus the kept inline entries. |
| SpanExtractor.EquationShape | main.py:88-92 | A display entry is `$$`, an interior without `$$`, then `$$`. An inline entry is `$`, an interior without `$`, then `$`. |
| SpanExtractor.DelimitersNotEscaped | main.py:86-92 | Neither the opening nor the closing delimiter of a returned entry follows a backslash. |
| SpanExtractor.InlineKeptIff | main.py:103-112 | An inline match is returned, with `disp = False`, exactly when no display entry contains it. |
| SpanExtractor.DisplaysReturned | main.py:95-98 | Every display match is returned. |
| SpanExtractor.SameKindDisjoint | main.py:95-115 | Any two distinct returned entries of the same kind do not overlap. |
| SpanExtractor.ExtractEmpty | main.py:80-115 | Empty content yields an empty list. |
| SpanExtractor.OverlapsAny | main.py:104-110 | The corrected inner loop reports true exactly when some collected entry shares a position with `[s, e)`. |
| SpanExtractor.CollectDisjointInvariant | main.py:103-112 | With the overlap test, the filter keeps only equations, and no two collected entries share a position. |
| SpanExtractor.ExtractEquationsDisjoint | main.py:94-115 | With the overlap test, every returned entry is an equation, and the list is ascending with no two entries overlapping. |
| SpanExtractor.ContainmentAdmitsOverlap | main.py:107-108 | In `$a$$$b$$`, as written, both the inline entry `$a$` (0 to 3) and the display entry `$$$b$$` (2 to 8) are returned, and they overlap. |
| SpanExtractor.AdjacentExtracted | main.py:94-115 | As written, on `$a$$$b$$` the result is exactly the inline `$a$` (0 to 3), then the display `$$$b$$` (2 to 8). |
| SpanExtractor.AdjacentDisjointKeepsDisplay | main.py:104-110 | With the overlap test, `$a$$$b$$` gives only the display `$$$b$$`, so `$a` would stay in the text with an unbalanced `$`. |
| Sorting.SortBy | main.py:115 | The sort returns a permutation ordered by the key. |
| Sorting.SortByDecreasingIsReverse | main.py:271 | When the keys strictly decrease along the list, the sort reverses it. |
| Sorting.SortByPairwise | main.py:115 | A property of every pair of entries survives the sort. |
| Interactive.ImageNamesDistinct | main.py:240 | Two equation indices give the same `<base>_equation_<i+1>.png` name exactly when they are equal. |
| Interactive.OutputNamesDistinct | _main.py:194 | Two indices give the same `equation_<i+1>.png` name exactly when they are equal. |
| Interactive.ImageName | main.py:240 | The name is the base name, then `_equation_`, then the digits of `i+1` with no leading zero, then `.png`. |
| Interactive.OutputName | _main.py:194 | The name is `equation_`, then the digits of `i+1` with no leading zero, then `.png`. |
| Interactive.AcceptsManualInput | main.py:170 | A manual input is accepted exactly when it starts with `r'$`, here and in the same check at _main.py:147. The `r'$$` alternative adds nothing. |
| Decimal.ToNatFromNat | main.py:240 | Reading the numeral of `i+1` back gives `i+1`. |
| Decimal.FromNatInjective | main.py:240 | Distinct numbers have distinct numerals. |
| Decimal.FromNat | main.py:240 | `str(n)` is at least one character long and all decimal digits, with no leading zero unless `n` is zero. |
| Splice.ReplacementTextInjective | main.py:247-260 | Two replacement texts are equal exactly when they are for the same kind of equation (centred picture for display math, lowered `\raisebox` picture for inline math) and the same image file name. |
| Splice.ReplacementText | main.py:250-260 | A display picture starts with a newline and `\begin{center}`, ends with `\end{center}` and a newline, and contains `\includegraphics{<name>}`. An inline picture starts with `\raisebox{-0.2\height}{`, ends with `}`, and contains `\includegraphics[width=0.15\linewidth]{<name>}`. |
| Splice.EditOf | main.py:238-262 | The edit for equation `i` covers that equation's span, and its text names the image `<base>_equation_<i+1>.png`. The text starts with a newline exactly when the equation is display math, so the kind picks the picture. |
| Splice.RenderedFrom | main.py:238-265 | The indices that get an edit are exactly those below the equation count whose rendering did not fail, in ascending order. |
| Splice.EditsFor | main.py:238-262 | There is one edit per rendered equation. |
| Splice.EditsForMembers | main.py:238-262 | An equation's edit is in the list exactly when its rendering did not fail. |
| Splice.SliceAssign | main.py:274 | For bounds inside the text, the result is the text before the start, then the replacement, then the text from the end on. Its length changes by the difference in size. Putting a span's own text back changes nothing. |
| Splice.SpliceAll | main.py:273-274 | Slice assignments that all start at or after `n` leave the first `n` characters untouched. |
| Splice.SortDescending | main.py:271 | The sort by descending start is a permutation of the edits. On edits that fit the text it is their reverse. |
| Splice.FitsOrdered | main.py:267-277 | Edits that fit lie inside the text, in ascending order and without overlap. |
| Splice.OrderedFits | main.py:267-277 | Conversely, edits inside the text in ascending order without overlap fit. |
| Splice.AssembleIdentity | main.py:273-274 | Assembling with every span's own text as its replacement gives back the original: the assembly is the identity then. |
| Splice.SplicedStep | main.py:273-274 | One slice assignment, in descending order, extends the assembled suffix by one edit. The text before it is left untouched. |
| Splice.SpliceDescendingAssembles | main.py:267-277 | Applying fitting edits as slice assignments in descending start order gives the original gaps interleaved with the replacement texts in ascending order. |
| Splice.ApplyReplacements | main.py:267-277 | `replacements_made` equals the number of edits. On every input the final text is `Splice.SpliceAll` of the edits sorted by descending start, overlapping edits included. On fitting edits, it is the original gaps interleaved with the replacement texts. |
| Splice.AscendingEditsFit | main.py:238-274 | Equations in ascending order give edits that fit the document, whichever renderings failed. |
| Splice.CorrectedReplaceAssembles | main.py:238-277 | With the corrected extractor, replace mode always has the interleaving guarantee. |
| Splice.OverlapBlocksFit | main.py:238-274 | Two rendered equations that overlap give edits that do not fit. |
| Splice.AdjacentEditsDoNotFit | main.py:107-108 | As written, the edits for `$a$$$b$$` do not fit the document, even when every rendering succeeds. |
| Splice.AdjacentSpliceDropsNewline | main.py:267-274 | As written, on `$a$$$b$$` with every rendering successful, the edits are the inline picture over 0 to 3 and the display picture over 2 to 8. The descending splice yields the inline picture, then the display picture without its leading newline. |
| Preamble.TryAt | main.py:130 | When the `\documentclass{…}…\begin{document}` regex is tried at `p` and reports group 2 at `d`, the regex matches there. That is: `\documentclass{` at `p`, the first `}` after it, then the first `\begin{document}` after that `}` at `d`. |
| Preamble.TryAtComplete | main.py:130 | Wherever that regex matches, the trial finds the same group 2. |
| Preamble.Search | main.py:130 | `re.search` reports a match at the leftmost position where the regex matches. When it reports none, the regex matches nowhere. |
| Preamble.AddGraphicxPackage | main.py:124-138 | Every result contains `\usepackage{graphicx}`. |
| Preamble.AddGraphicxUnchangedIff | main.py:127-138 | The input comes back unchanged exactly when it already contains `\usepackage{graphicx}`. |
| Preamble.AddGraphicxIdempotent | main.py:124-138 | Applying the patch twice is the same as applying it once. |
| Preamble.AddGraphicxFallback | main.py:134-136 | Without a `\documentclass{…}…\begin{document}` match, the result is exactly `\usepackage{graphicx}` followed by a newline and the input. |
| Preamble.AddGraphicxAtMatch | main.py:130-133 | At the leftmost match, the result is the input from `\documentclass` up to `\begin{document}`, a newline, the package line, then the rest of the input from `\begin{document}` on. |
| Preamble.AddGraphicxDropsLeadingText | main.py:133 | As written, a `%` comment line in front of `\documentclass` disappears: the result is four characters shorter than an insertion. The corrected version keeps the line. |
| Preamble.AddGraphicxPackageKeepingPreamble | main.py:124-138 | The corrected patch also always yields text containing `\usepackage{graphicx}`. |
| Preamble.KeepingPreambleOnlyInserts | main.py:131-136 | The corrected patch only inserts: the result is the input, or the input with the package line and a newline inserted at one index. |
| Preamble.KeepingPreambleIdempotent | main.py:124-138 | The corrected patch is idempotent. |
| Preamble.KeepingPreambleAgrees | main.py:130-133 | When no match starts after offset 0, the corrected and the original patch agree. |
| Text.IndexFrom | main.py:127 | `find` reports the first occurrence at or after `i`, or none when there is no occurrence. |
| Text.ReplaceAbsent | _main.py:107 | `str.replace` of a pattern that does not occur leaves the text unchanged. |
| Text.ReplaceSelf | _main.py:107 | Replacing a pattern by itself leaves the text unchanged. |
| Text.Replace | _main.py:107 | `str.replace` with a replacement no longer than the pattern never makes the text longer. |
| Text.ReplaceAtFirst | _main.py:107 | `str.replace` rewrites the leftmost occurrence, then carries on just past it. Together with `Text.ReplaceAbsent` this fixes the result. |
| Text.ReplaceShrinks | _main.py:107 | Replacing a pattern that occurs by something shorter makes the text shorter. |
| LegacyExtractor.FindAllWrapped | _main.py:105-113 | Putting the delimiters back around a group gives the matched text. |
| LegacyExtractor.FindAll | _main.py:102-110 | `re.findall` gives one group per match of the left-to-right scan. |
| LegacyExtractor.ExtractEquationsFromTex | _main.py:68-119 | There is one equation per display match of the content plus one per inline match of the blanked content. Each has a dollar sign at both ends, as the docstring promises. |
| LegacyExtractor.BlankDisplays | _main.py:103-107 | Blanking the display strings never makes the text longer. |
| LegacyExtractor.BlankingShifts | _main.py:107 | Whenever the content has a display equation, the text the inline pass reads is strictly shorter, so the offsets after it shift. |
| LegacyExtractor.EquationsInScanOrder | _main.py:102-113 | The display equations come first: each is the text of the `k`-th display match of the original content, in scan order. The inline equations follow: each is the text of the `k`-th inline match of the blanked content, in scan order. |
| LegacyExtractor.EquationShapes | _main.py:97-113 | The first equations are `$$`, an interior without `$$` that does not end in `$`, then `$$`. The rest are `$`, an interior with neither `$` nor a newline, then `$`. |
| LegacyExtractor.DisplayGroupShape | _main.py:99-102 | A lazy `$$` interior holds no `$$` and does not end in `$`. |
| LegacyExtractor.InlineGroupShape | _main.py:97-110 | An inline interior holds no `$`, and no newline because the inline pass runs without DOTALL. |
| LegacyExtractor.NoDollarNoEquations | _main.py:80-119 | Content without `$`, empty content included, yields no equations. |
| LegacyExtractor.BlankAbsent | _main.py:103-107 | Blanking display strings that do not occur leaves the content unchanged. |
| LegacyExtractor.EscapedDollarContrast | _main.py:97-99 | A backslash does not protect a `$` here: `\$x$` yields `$x$`. The span extractor of main.py finds nothing in the same text. |

## Left out

- `latex_to_image` in both files is not part of this model. It is matplotlib and LaTeX rendering. Its outcome enters only as the set `failed` of equation indices whose rendering raised.
- File reading and writing, `os.path`, `os.makedirs`, and the `FileNotFoundError`/`Exception` handlers are left out. The extractors take the text itself. A failed read makes the source return an empty list, which is the caller's concern here.
- The interactive `input()`/`print` loop, mode dispatch and `eval` of the manual input are left out. Only the prefix check and the file names are modelled.
- Parsing the DPI prompt with `int()` is left out, because it only feeds the renderer.
- General regular-expression semantics are left out. Only the four delimiter regexes and the one preamble regex are modelled, each as a hand-written scanner.
- Sorting.SortBy: the contract states order and permutation, not the stability of `list.sort`. No property proved here depends on the order of entries with equal keys.
- Text.Replace: requires a non-empty pattern. Python also defines replacing the empty string, but the only caller passes `'$$' + m + '$$'`.
- Splice.EditsFor: the edit list is built only for replace mode (`sub_mode == 'r'`). Image-only mode builds no edits and is not modelled separately.
- The splice guarantee (`Splice.ApplyReplacements`, `Splice.SpliceDescendingAssembles`) is proved for edits that fit the text. For overlapping edits, `Splice.ApplyReplacements` is only shown to equal what the code does (`Splice.SpliceAll` in descending order); no gap-and-replacement shape is claimed.
- `add_graphicx_package` is applied to the spliced text in the source (main.py:290). That composition is not restated as a lemma of its own.

## Findings

| source | as written | input that shows it | evidently intended | confidence | as-written member | corrected member |
|---|---|---|---|---|---|---|
| main.py:104-108 | An inline match is dropped only when it lies entirely inside a collected entry (`start >= disp_start and end <= disp_end`), so an inline match that partly overlaps a display match is kept. | `$a$$$b$$`: the display scan takes `$$$b$$` (2 to 8), and the inline match `$a$` (0 to 3) is kept too. The two edits overlap, so the splice's precondition `Fits` fails. The descending splice then yields the inline picture, then the display picture without its leading newline. | The comments disagree. Line 104 describes a containment test, which is what line 108 does. Line 105 and the flag `is_overlap` describe an overlap test. The splice at lines 267-274 edits by offset, so it needs disjoint spans either way. The overlap test gives disjoint spans, but on this input it keeps only `$$$b$$`, which would leave `$a` in the text with an unbalanced `$`. | low, not executed | Splice.AdjacentSpliceDropsNewline | SpanExtractor.ExtractEquationsDisjoint |
| main.py:133 | The patched text is rebuilt from `match.group(1)` on, so everything before `\documentclass` is dropped. | `% c`, a newline, then `\documentclass{a}\begin{document}` becomes `\documentclass{a}` + newline + `\usepackage{graphicx}\begin{document}`: the comment line `% c` is gone. | Insert the package line in place and keep the text before `\documentclass`: prepend `content[:match.start()]`. | high, not executed | Preamble.AddGraphicxDropsLeadingText | Preamble.AddGraphicxPackageKeepingPreamble |

For both rows the as-written operation stays the primary model,
`SpanExtractor.ExtractEquationsWithSpans` and `Preamble.AddGraphicxPackage`,
because that is what the program does. The corrected operation is proved to
have the intended property. Replace mode over the corrected extractor has the
full splice guarantee (`Splice.CorrectedReplaceAssembles`). Over the as-written
extractor that precondition can fail, for example on `$a$$$b$$` (`Splice.AdjacentEditsDoNotFit`).
On `$a$$$b$$` the splice then drops the display picture's leading newline
(`Splice.AdjacentSpliceDropsNewline`). That is the final text of
`Splice.ApplyReplacements`, which on every input equals `Splice.SpliceAll` of
the edits in descending order.

## Notes on the code

- A `$` without a partner is not reported by either extractor. It is simply not part of any match, so the model has no error path for it.
- The comment at main.py:74 says escaped dollar signs are not matched. The lookbehinds at main.py:88 and main.py:92 do that (`SpanExtractor.DelimitersNotEscaped`). The patterns at _main.py:97 and _main.py:99 have no lookbehind, so there a backslash does not protect a `$` (`LegacyExtractor.EscapedDollarContrast`).
- The comment at main.py:100 speaks of display math being "logically" removed before the inline scan. The code scans the whole text for inline matches and filters them, testing containment against every collected entry, earlier inline ones included. The model follows that loop (`SpanExtractor.CollectInline`), and `SpanExtractor.CollectIsFilter` proves that the extra checks never change the outcome. Only `_main.py` removes the display strings first (`LegacyExtractor.BlankDisplays`).
- The comment at `_main.py:107` says the space preserves offsets. It does not: one space replaces a string of at least four characters (`LegacyExtractor.BlankingShifts`). The model follows the code.

=== FILE: decimal.dfy ===
/** Python's `str(n)` for a non-negative integer, and its inverse. */
module Decimal {

  predicate IsDigit(ch: char) {
    '0' <= ch <= '9'
  }

  function Digit(d: nat): (ch: char)
    requires d < 10
    ensures IsDigit(ch)
  {
    ('0' as int + d) as char
  }

  function DigitValue(ch: char): (d: nat)
    requires IsDigit(ch)
    ensures d < 10 && Digit(d) == ch
  {
    ch as int - '0' as int
  }

  predicate AllDigits(s: string) {
    forall k :: 0 <= k < |s| ==> IsDigit(s[k])
  }

  /** The decimal numeral of `n`: at least one digit, and no leading zero
      unless `n` is zero. */
  function FromNat(n: nat): (s: string)
    ensures 0 < |s| && AllDigits(s)
    ensures n > 0 ==> s[0] != '0'
    decreases n
  {
    if n < 10 then [Digit(n)] else FromNat(n / 10) + [Digit(n % 10)]
  }

  /** The value of a string of decimal digits. */
  function ToNat(s: string): nat
    requires AllDigits(s)
  {
    if |s| == 0 then 0 else 10 * ToNat(s[..|s| - 1]) + DigitValue(s[|s| - 1])
  }

  /** Reading a numeral back gives the number it was made from. */
  lemma {:induction false} ToNatFromNat(n: nat)
    ensures ToNat(FromNat(n)) == n
    decreases n
  {
    var s := FromNat(n);
    if n < 10 {
      assert s[..|s| - 1] == [];
    } else {
      ToNatFromNat(n / 10);
      assert s[..|s| - 1] == FromNat(n / 10);
    }
  }

  /** Distinct numbers have distinct numerals. */
  lemma FromNatInjective(m: nat, n: nat)
    ensures FromNat(m) == FromNat(n) <==> m == n
  {
    if FromNat(m) == FromNat(n) {
      ToNatFromNat(m);
      ToNatFromNat(n);
    }
  }
}

=== FILE: interactive.dfy ===
/** The small pure pieces of the two interactive loops: the check on a
    manually typed equation and the names given to the rendered images. */
module Interactive {
  import Decimal
  import Text

  /** main.py replace/images sub-modes: `<base>_equation_<i+1>.png` for the
      equation at 0-based index `i` of the file whose base name is `base`. */
  function ImageName(base: string, i: nat): (r: string)
    ensures |base| + 15 <= |r| && r[..|base|] == base && r[|r| - 4..] == ".png"
    ensures r[|base|..|base| + 10] == "_equation_"
    ensures var num := r[|base| + 10..|r| - 4];
            Decimal.AllDigits(num) && Decimal.ToNat(num) == i + 1 && num[0] != '0'
  {
    var num := Decimal.FromNat(i + 1);
    Decimal.ToNatFromNat(i + 1);
    var r := base + "_equation_" + num + ".png";
    assert r[|base| + 10..|r| - 4] == num;
    r
  }

  /** _main.py file mode: `equation_<i+1>.png`. */
  function OutputName(i: nat): (r: string)
    ensures 14 <= |r| && r[..9] == "equation_" && r[|r| - 4..] == ".png"
    ensures var num := r[9..|r| - 4];
            Decimal.AllDigits(num) && Decimal.ToNat(num) == i + 1 && num[0] != '0'
  {
    var num := Decimal.FromNat(i + 1);
    Decimal.ToNatFromNat(i + 1);
    var r := "equation_" + num + ".png";
    assert r[9..|r| - 4] == num;
    r
  }

  /** Two equations of one file never share an image name. */
  lemma ImageNamesDistinct(base: string, i: nat, j: nat)
    ensures ImageName(base, i) == ImageName(base, j) <==> i == j
  {
    if ImageName(base, i) == ImageName(base, j) {
      Text.StripAround(base + "_equation_", Decimal.FromNat(i + 1), Decimal.FromNat(j + 1), ".png");
      Decimal.FromNatInjective(i + 1, j + 1);
    }
  }

  /** Two equations never share an output file. */
  lemma OutputNamesDistinct(i: nat, j: nat)
    ensures OutputName(i) == OutputName(j) <==> i == j
  {
    if OutputName(i) == OutputName(j) {
      Text.StripAround("equation_", Decimal.FromNat(i + 1), Decimal.FromNat(j + 1), ".png");
      Decimal.FromNatInjective(i + 1, j + 1);
    }
  }

  /** The manual-mode check: the typed text must start with `r'$` or with
      `r'$$`; the second alternative adds nothing. */
  function AcceptsManualInput(input: string): (ok: bool)
    ensures ok <==> Text.StartsWith(input, "r'$")
  {
    var ok := Text.StartsWith(input, "r'$") || Text.StartsWith(input, "r'$$");
    assert Text.StartsWith(input, "r'$$") ==> input[..3] == input[..4][..3];
    ok
  }
}

=== FILE: legacy_extractor.dfy ===
/** _main.py `extract_equations_from_tex` without the file read: collect the
    display equations, blank every copy of each out of the text, then collect
    the inline equations from what is left. Display equations come first in
    the result, inline ones after, each kind in scan order. */
module LegacyExtractor {
  import opened Options
  import opened Patterns
  import opened Scanner
  import Text
  import SpanExtractor

  /** The delimiter `pat` puts on both sides of its group. */
  function Delim(pat: Pattern): (d: string)
    ensures |d| == Width(pat)
  {
    if Width(pat) == 2 then "$$" else "$"
  }

  /** Every match of the scan is long enough to hold both delimiters. */
  lemma FindIterBounds(c: string, i: nat, pat: Pattern)
    ensures forall k :: 0 <= k < |FindIter(c, i, pat)| ==>
      FindIter(c, i, pat)[k].start + 2 * Width(pat) <= FindIter(c, i, pat)[k].end <= |c|
  {
    var ms := FindIter(c, i, pat);
    forall k | 0 <= k < |ms|
      ensures ms[k].start + 2 * Width(pat) <= ms[k].end <= |c|
    {
      MatchBounds(c, ms[k].start, ms[k].end, pat);
    }
  }

  /** The whole match is the group with a delimiter on either side. */
  lemma GroupWrapped(c: string, p: nat, e: nat, pat: Pattern)
    requires IsMatch(c, p, e, pat)
    ensures p + 2 * Width(pat) <= e <= |c|
    ensures Delim(pat) + c[p + Width(pat)..e - Width(pat)] + Delim(pat) == c[p..e]
  {
    MatchBounds(c, p, e, pat);
    var w := Width(pat);
    assert c[p..p + w] == Delim(pat);
    assert c[e - w..e] == Delim(pat);
    assert c[p..e] == c[p..p + w] + c[p + w..e - w] + c[e - w..e];
  }

  /** `re.findall` for a one-group pattern: group 1 of each match, in scan
      order. */
  function FindAll(c: string, pat: Pattern): (gs: seq<string>)
    ensures |gs| == |FindIter(c, 0, pat)|
  {
    var ms := FindIter(c, 0, pat);
    var w := Width(pat);
    FindIterBounds(c, 0, pat);
    seq(|ms|, k requires 0 <= k < |ms| => c[ms[k].start + w..ms[k].end - w])
  }

  /** Group `k` is what lies between the delimiters of match `k`. */
  lemma FindAllGroup(c: string, pat: Pattern, k: nat)
    requires k < |FindIter(c, 0, pat)|
    ensures var m := FindIter(c, 0, pat)[k];
            && IsMatch(c, m.start, m.end, pat)
            && m.start + 2 * Width(pat) <= m.end <= |c|
            && FindAll(c, pat)[k] == c[m.start + Width(pat)..m.end - Width(pat)]
  {
    FindIterBounds(c, 0, pat);
  }

  /** Putting the delimiters back around group `k` gives the text of match `k`. */
  lemma FindAllWrapped(c: string, pat: Pattern, k: nat)
    requires k < |FindIter(c, 0, pat)|
    ensures var m := FindIter(c, 0, pat)[k];
            m.start <= m.end <= |c| && Delim(pat) + FindAll(c, pat)[k] + Delim(pat) == c[m.start..m.end]
  {
    var m := FindIter(c, 0, pat)[k];
    FindAllGroup(c, pat, k);
    GroupWrapped(c, m.start, m.end, pat);
  }

  /** `content = content.replace('$$' + m + '$$', ' ')` for each display
      group `m`, in order. */
  function BlankDisplays(c: string, ds: seq<string>): (r: string)
    ensures |r| <= |c|
    decreases |ds|
  {
    if ds == [] then c
    else BlankDisplays(Text.Replace(c, "$$" + ds[0] + "$$", " "), ds[1..])
  }

  function Wrap(d: string, gs: seq<string>): seq<string> {
    seq(|gs|, k requires 0 <= k < |gs| => d + gs[k] + d)
  }

  /** The display groups of the text. */
  function Displays(c: string): seq<string> {
    FindAll(c, LegacyDisplay)
  }

  /** The text the inline pass reads: every copy of each display equation
      blanked to one space. */
  function Blanked(c: string): string {
    BlankDisplays(c, Displays(c))
  }

  /** An equation string as the docstring promises: dollar signs at both ends. */
  predicate DollarDelimited(t: string) {
    2 <= |t| && t[0] == '$' && t[|t| - 1] == '$'
  }

  /** _main.py `extract_equations_from_tex` on already-read content. */
  function ExtractEquationsFromTex(c: string): (eqs: seq<string>)
    ensures |eqs| == |FindIter(c, 0, LegacyDisplay)| + |FindIter(Blanked(c), 0, LegacyInline)|
    ensures forall k :: 0 <= k < |eqs| ==> DollarDelimited(eqs[k])
  {
    CollectDelimited(c, Blanked(c));
    Collect(c, Blanked(c))
  }

  /** The display equations of `c`, then the inline equations of `b`. */
  function Collect(c: string, b: string): (eqs: seq<string>)
    ensures |eqs| == |FindIter(c, 0, LegacyDisplay)| + |FindIter(b, 0, LegacyInline)|
  {
    Wrap("$$", Displays(c)) + Wrap("$", FindAll(b, LegacyInline))
  }

  lemma CollectDelimited(c: string, b: string)
    ensures forall k :: 0 <= k < |Collect(c, b)| ==> DollarDelimited(Collect(c, b)[k])
  {
    var ds := Wrap("$$", Displays(c));
    var ins := Wrap("$", FindAll(b, LegacyInline));
    forall k | 0 <= k < |ds + ins|
      ensures DollarDelimited((ds + ins)[k])
    {
      if k < |ds| {
        WrappedMiddle("$$", Displays(c)[k]);
      } else {
        WrappedMiddle("$", FindAll(b, LegacyInline)[k - |ds|]);
      }
    }
  }

  /** The space put in for a display equation is shorter than the equation,
      so offsets after it shift: whenever there is a display equation the
      text the inline pass reads is shorter than the original. */
  lemma BlankingShifts(c: string)
    requires FindIter(c, 0, LegacyDisplay) != []
    ensures |Blanked(c)| < |c|
  {
    var ds := Displays(c);
    var m := FindIter(c, 0, LegacyDisplay)[0];
    FindAllWrapped(c, LegacyDisplay, 0);
    var pat := "$$" + ds[0] + "$$";
    assert c[m.start..m.end] == pat;
    Text.OccursAtContains(c, pat, m.start);
    Text.ReplaceShrinks(c, pat, " ");
  }

  /** The display equations come first, as matched in the original text and
      in scan order; the inline equations follow, as matched in the blanked
      text and in scan order. */
  lemma EquationsInScanOrder(c: string)
    ensures var eqs := ExtractEquationsFromTex(c);
            var dm := FindIter(c, 0, LegacyDisplay);
            var b := Blanked(c);
            var im := FindIter(b, 0, LegacyInline);
            && (forall k :: 0 <= k < |dm| ==> dm[k].end <= |c| && eqs[k] == c[dm[k].start..dm[k].end])
            && (forall k :: 0 <= k < |im| ==> im[k].end <= |b| && eqs[|dm| + k] == b[im[k].start..im[k].end])
  {
    assert ExtractEquationsFromTex(c) == Collect(c, Blanked(c));
    CollectInScanOrder(c, Blanked(c));
  }

  lemma CollectInScanOrder(c: string, b: string)
    ensures var eqs := Collect(c, b);
            var dm := FindIter(c, 0, LegacyDisplay);
            var im := FindIter(b, 0, LegacyInline);
            && (forall k :: 0 <= k < |dm| ==> dm[k].end <= |c| && eqs[k] == c[dm[k].start..dm[k].end])
            && (forall k :: 0 <= k < |im| ==> im[k].end <= |b| && eqs[|dm| + k] == b[im[k].start..im[k].end])
  {
    CollectDisplaysInOrder(c, b);
    CollectInlinesInOrder(c, b);
  }

  lemma CollectDisplaysInOrder(c: string, b: string)
    ensures var dm := FindIter(c, 0, LegacyDisplay);
            forall k :: 0 <= k < |dm| ==> dm[k].end <= |c| && Collect(c, b)[k] == c[dm[k].start..dm[k].end]
  {
    var dm := FindIter(c, 0, LegacyDisplay);
    forall k | 0 <= k < |dm|
      ensures dm[k].end <= |c| && Collect(c, b)[k] == c[dm[k].start..dm[k].end]
    {
      DisplayEquationAt(c, b, k);
    }
  }

  lemma CollectInlinesInOrder(c: string, b: string)
    ensures var n := |FindIter(c, 0, LegacyDisplay)|;
            var im := FindIter(b, 0, LegacyInline);
            forall k :: 0 <= k < |im| ==> im[k].end <= |b| && Collect(c, b)[n + k] == b[im[k].start..im[k].end]
  {
    var n := |FindIter(c, 0, LegacyDisplay)|;
    var im := FindIter(b, 0, LegacyInline);
    forall k | 0 <= k < |im|
      ensures im[k].end <= |b| && Collect(c, b)[n + k] == b[im[k].start..im[k].end]
    {
      InlineEquationAt(c, b, k);
    }
  }

  lemma DisplayEquationAt(c: string, b: string, k: nat)
    requires k < |FindIter(c, 0, LegacyDisplay)|
    ensures var m := FindIter(c, 0, LegacyDisplay)[k];
            m.end <= |c| && Collect(c, b)[k] == c[m.start..m.end]
  {
    var head := Wrap("$$", Displays(c));
    var tail := Wrap("$", FindAll(b, LegacyInline));
    assert (head + tail)[k] == head[k];
    FindAllWrapped(c, LegacyDisplay, k);
  }

  lemma InlineEquationAt(c: string, b: string, k: nat)
    requires k < |FindIter(b, 0, LegacyInline)|
    ensures var m := FindIter(b, 0, LegacyInline)[k];
            m.end <= |b| && Collect(c, b)[|FindIter(c, 0, LegacyDisplay)| + k] == b[m.start..m.end]
  {
    var head := Wrap("$$", Displays(c));
    var tail := Wrap("$", FindAll(b, LegacyInline));
    assert (head + tail)[|head| + k] == tail[k];
    FindAllWrapped(b, LegacyInline, k);
  }

  /** A display group holds no `$$` and does not end in `$`: the lazy loop
      stops at the first `$$`. */
  ghost predicate DisplayInterior(m: string) {
    && !Text.Contains(m, "$$")
    && (|m| > 0 ==> m[|m| - 1] != '$')
  }

  /** An inline group holds no `$`, and no newline because the inline pass
      runs without DOTALL. */
  ghost predicate InlineInterior(m: string) {
    forall j :: 0 <= j < |m| ==> m[j] != '$' && m[j] != '\n'
  }

  lemma DisplayGroupShape(c: string, p: nat, e: nat)
    requires IsMatch(c, p, e, LegacyDisplay)
    ensures p + 4 <= e <= |c|
    ensures DisplayInterior(c[p + 2..e - 2])
  {
    MatchBounds(c, p, e, LegacyDisplay);
    var m := c[p + 2..e - 2];
    forall j: nat | j + 2 <= |m|
      ensures !Text.OccursAt(m, "$$", j)
    {
      assert !Delimiter(c, p + 2 + j, LegacyDisplay);
      assert m[j] == c[p + 2 + j] && m[j + 1] == c[p + 3 + j];
      assert m[j..j + 2][0] == m[j];
      assert m[j..j + 2][1] == m[j + 1];
    }
    if |m| > 0 {
      assert !Delimiter(c, e - 3, LegacyDisplay);
      assert m[|m| - 1] == c[e - 3];
    }
  }

  lemma InlineGroupShape(c: string, p: nat, e: nat)
    requires IsMatch(c, p, e, LegacyInline)
    ensures p + 2 <= e <= |c|
    ensures InlineInterior(c[p + 1..e - 1])
  {
    MatchBounds(c, p, e, LegacyInline);
    var m := c[p + 1..e - 1];
    forall j | 0 <= j < |m|
      ensures m[j] != '$' && m[j] != '\n'
    {
      assert m[j] == c[p + 1 + j];
      assert !Delimiter(c, p + 1 + j, LegacyInline);
      assert InteriorChar(c, p + 1 + j, LegacyInline);
    }
  }

  /** Each display group has the shape of a lazy `$$` interior. */
  lemma DisplayGroupsShape(c: string)
    ensures forall k :: 0 <= k < |Displays(c)| ==> DisplayInterior(Displays(c)[k])
  {
    forall k | 0 <= k < |Displays(c)|
      ensures DisplayInterior(Displays(c)[k])
    {
      DisplayGroupAt(c, k);
    }
  }

  lemma DisplayGroupAt(c: string, k: nat)
    requires k < |Displays(c)|
    ensures DisplayInterior(Displays(c)[k])
  {
    var m := FindIter(c, 0, LegacyDisplay)[k];
    FindAllGroup(c, LegacyDisplay, k);
    DisplayGroupShape(c, m.start, m.end);
  }

  /** Each inline group has the shape of a `$` interior without DOTALL. */
  lemma InlineGroupsShape(b: string)
    ensures forall k :: 0 <= k < |FindAll(b, LegacyInline)| ==> InlineInterior(FindAll(b, LegacyInline)[k])
  {
    var im := FindIter(b, 0, LegacyInline);
    var gs := FindAll(b, LegacyInline);
    forall k | 0 <= k < |gs|
      ensures InlineInterior(gs[k])
    {
      FindAllGroup(b, LegacyInline, k);
      InlineGroupShape(b, im[k].start, im[k].end);
    }
  }

  /** `t` is `$$`, a display group, `$$`. */
  ghost predicate DisplayEquation(t: string) {
    |t| >= 4 && t[..2] == "$$" && t[|t| - 2..] == "$$" && DisplayInterior(t[2..|t| - 2])
  }

  /** `t` is `$`, an inline group, `$`. */
  ghost predicate InlineEquation(t: string) {
    |t| >= 2 && t[0] == '$' && t[|t| - 1] == '$' && InlineInterior(t[1..|t| - 1])
  }

  /** The first equations returned are display equations, the rest inline ones. */
  lemma EquationShapes(c: string)
    ensures var eqs := ExtractEquationsFromTex(c);
            var n := |FindIter(c, 0, LegacyDisplay)|;
            && (forall k :: 0 <= k < n ==> DisplayEquation(eqs[k]))
            && (forall k :: n <= k < |eqs| ==> InlineEquation(eqs[k]))
  {
    assert ExtractEquationsFromTex(c) == Collect(c, Blanked(c));
    CollectShapes(c, Blanked(c));
  }

  lemma CollectShapes(c: string, b: string)
    ensures var eqs := Collect(c, b);
            var n := |FindIter(c, 0, LegacyDisplay)|;
            && (forall k :: 0 <= k < n ==> DisplayEquation(eqs[k]))
            && (forall k :: n <= k < |eqs| ==> InlineEquation(eqs[k]))
  {
    var eqs := Collect(c, b);
    var ds := Displays(c);
    var ins := FindAll(b, LegacyInline);
    assert |eqs| == |ds| + |ins|;
    DisplayGroupsShape(c);
    InlineGroupsShape(b);
    forall k | 0 <= k < |ds|
      ensures DisplayEquation(eqs[k])
    {
      assert eqs[k] == "$$" + ds[k] + "$$";
      WrappedMiddle("$$", ds[k]);
    }
    forall k | |ds| <= k < |eqs|
      ensures InlineEquation(eqs[k])
    {
      assert eqs[k] == "$" + ins[k - |ds|] + "$";
      WrappedMiddle("$", ins[k - |ds|]);
    }
  }

  lemma WrappedMiddle(d: string, m: string)
    ensures var t := d + m + d;
            t[..|d|] == d && t[|t| - |d|..] == d && t[|d|..|t| - |d|] == m
  {
  }

  /** Text without a `$`, the empty text included, has no equations. */
  lemma NoDollarNoEquations(c: string)
    requires forall k :: 0 <= k < |c| ==> c[k] != '$'
    ensures ExtractEquationsFromTex(c) == []
  {
    NoDollarNoMatches(c, 0, LegacyDisplay);
    assert Blanked(c) == c;
    NoDollarNoMatches(c, 0, LegacyInline);
  }

  /** Blanking a display equation that does not occur leaves the text as it
      is, so the inline pass then reads the original text. */
  lemma BlankAbsent(c: string, ds: seq<string>)
    requires forall k :: 0 <= k < |ds| ==> !Text.Contains(c, "$$" + ds[k] + "$$")
    ensures BlankDisplays(c, ds) == c
    decreases |ds|
  {
    if ds != [] {
      Text.ReplaceAbsent(c, "$$" + ds[0] + "$$", " ");
      BlankAbsent(c, ds[1..]);
    }
  }

  /** `\$x$`: a dollar sign after a backslash, then `x$`. */
  const EscapedDollar: string := "\\$x$"

  /** A backslash does not protect a `$` here: `\$x$` yields the equation
      `$x$`, while the span extractor of main.py finds nothing in it. */
  lemma EscapedDollarContrast()
    ensures ExtractEquationsFromTex(EscapedDollar) == ["$x$"]
    ensures SpanExtractor.ExtractEquationsWithSpans(EscapedDollar) == []
  {
    EscapedLegacy();
    EscapedSpan();
  }

  lemma EscapedLegacy()
    ensures ExtractEquationsFromTex(EscapedDollar) == ["$x$"]
  {
    var c := EscapedDollar;
    EscapedNoDisplay(c, LegacyDisplay);
    assert Displays(c) == [];
    assert Blanked(c) == c;
    assert ExtractEquationsFromTex(c) == Collect(c, c);
    EscapedLegacyInline();
    FindAllGroup(c, LegacyInline, 0);
    assert FindAll(c, LegacyInline) == [c[2..3]];
    assert c[2..3] == "x";
    assert Wrap("$$", Displays(c)) == [];
    assert Wrap("$", FindAll(c, LegacyInline)) == ["$" + "x" + "$"];
    assert "$" + "x" + "$" == "$x$";
  }

  lemma EscapedSpan()
    ensures SpanExtractor.ExtractEquationsWithSpans(EscapedDollar) == []
  {
    var c := EscapedDollar;
    EscapedNoDisplay(c, SpanDisplay);
    EscapedSpanInline();
    assert SpanExtractor.DisplaySpans(c) == [];
    assert SpanExtractor.KeptInline(c) == [];
  }

  lemma EscapedNoDisplay(c: string, pat: Pattern)
    requires c == EscapedDollar && Width(pat) == 2
    ensures FindIter(c, 0, pat) == []
  {
    assert c[0] == '\\' && c[1] == '$' && c[2] == 'x' && c[3] == '$' && |c| == 4;
    assert MatchEnd(c, 0, pat) == None;
    assert MatchEnd(c, 1, pat) == None;
    assert MatchEnd(c, 2, pat) == None;
    assert MatchEnd(c, 3, pat) == None;
    assert FindIter(c, 3, pat) == FindIter(c, 4, pat);
    assert FindIter(c, 2, pat) == FindIter(c, 3, pat);
    assert FindIter(c, 1, pat) == FindIter(c, 2, pat);
  }

  lemma EscapedLegacyInline()
    ensures FindIter(EscapedDollar, 0, LegacyInline) == [Match(1, 4)]
  {
    var c := EscapedDollar;
    assert c[0] == '\\' && c[1] == '$' && c[2] == 'x' && c[3] == '$' && |c| == 4;
    assert MatchEnd(c, 0, LegacyInline) == None;
    assert IsMatch(c, 1, 4, LegacyInline);
    assert MatchEnd(c, 1, LegacyInline) == Some(4);
    assert FindIter(c, 4, LegacyInline) == [];
  }

  lemma EscapedSpanInline()
    ensures FindIter(EscapedDollar, 0, SpanInline) == []
  {
    var c := EscapedDollar;
    assert c[0] == '\\' && c[1] == '$' && c[2] == 'x' && c[3] == '$' && |c| == 4;
    assert MatchEnd(c, 0, SpanInline) == None;
    assert MatchEnd(c, 1, SpanInline) == None;
    assert MatchEnd(c, 2, SpanInline) == None;
    assert CloseFrom(c, 4, SpanInline) == None;
    assert MatchEnd(c, 3, SpanInline) == None;
    assert FindIter(c, 3, SpanInline) == FindIter(c, 4, SpanInline);
    assert FindIter(c, 2, SpanInline) == FindIter(c, 3, SpanInline);
    assert FindIter(c, 1, SpanInline) == FindIter(c, 2, SpanInline);
  }
}

=== FILE: options.dfy ===
/** An optional value: what a regex search or a `str.find` yields. */
module Options {

  datatype Option<+T> = None | Some(value: T)
}

=== FILE: patterns.dfy ===
/** The four delimiter regexes the two extractors run, each written as a
    declarative "match from p to e" predicate and as a scanner that computes
    the end of the match, proved to agree.

    Every pattern is: an opening delimiter, a non-greedy interior, a closing
    delimiter equal to the opening one. The backtracking engine, starting
    the interior at q, first tries the closing delimiter at q; when that
    fails it consumes the character at q if the interior allows it, and
    otherwise the attempt at this start fails. */
module Patterns {
  import opened Options

  datatype Pattern =
      /** main.py display math: `$$`, not after a backslash; the interior may
          hold any character (DOTALL) but never starts a `$$`. */
    | SpanDisplay
      /** main.py inline math: `$`, not after a backslash; the interior holds
          any character except `$` (DOTALL). */
    | SpanInline
      /** _main.py display math: `$$`, no lookbehind; any interior (DOTALL). */
    | LegacyDisplay
      /** _main.py inline math: `$`, no lookbehind; the interior holds no
          newline (no DOTALL). */
    | LegacyInline

  /** Number of `$` in the delimiter. */
  function Width(pat: Pattern): nat {
    if pat.SpanDisplay? || pat.LegacyDisplay? then 2 else 1
  }

  /** The patterns of main.py carry a negative lookbehind for `\`. */
  predicate EscapeAware(pat: Pattern) {
    pat.SpanDisplay? || pat.SpanInline?
  }

  /** The character before index `j`, if any, is not a backslash. */
  predicate NotEscaped(c: string, j: nat) {
    j == 0 || (j <= |c| && c[j - 1] != '\\')
  }

  /** The delimiter of `pat` matches at `j`, lookbehind included. */
  predicate Delimiter(c: string, j: nat, pat: Pattern) {
    && j + Width(pat) <= |c|
    && c[j] == '$'
    && (Width(pat) == 2 ==> c[j + 1] == '$')
    && (EscapeAware(pat) ==> NotEscaped(c, j))
  }

  /** The interior of `pat` may consume the character at `j`. */
  predicate InteriorChar(c: string, j: nat, pat: Pattern) {
    && j < |c|
    && match pat
       case SpanDisplay => !(c[j] == '$' && j + 1 < |c| && c[j + 1] == '$')
       case SpanInline => c[j] != '$'
       case LegacyDisplay => true
       case LegacyInline => c[j] != '\n'
  }

  /** An interior starting at `q` ends with the closing delimiter that
      finishes at `e`: at every earlier position the closing delimiter
      failed and the interior could consume the character. */
  ghost predicate ClosesAt(c: string, q: nat, e: nat, pat: Pattern) {
    && q + Width(pat) <= e
    && Delimiter(c, e - Width(pat), pat)
    && forall j :: q <= j < e - Width(pat) ==> !Delimiter(c, j, pat) && InteriorChar(c, j, pat)
  }

  /** `pat` matches `c[p..e]` when the engine tries it at `p`. */
  ghost predicate IsMatch(c: string, p: nat, e: nat, pat: Pattern) {
    Delimiter(c, p, pat) && ClosesAt(c, p + Width(pat), e, pat)
  }

  /** The non-greedy interior loop starting at `q`. */
  function CloseFrom(c: string, q: nat, pat: Pattern): (r: Option<nat>)
    ensures forall e: nat :: r == Some(e) <==> ClosesAt(c, q, e, pat)
    decreases |c| - q
  {
    if Delimiter(c, q, pat) then Some(q + Width(pat))
    else if InteriorChar(c, q, pat) then CloseFrom(c, q + 1, pat)
    else None
  }

  /** The end of the match of `pat` tried at `p`, if the attempt succeeds. */
  function MatchEnd(c: string, p: nat, pat: Pattern): (r: Option<nat>)
    ensures forall e: nat :: r == Some(e) <==> IsMatch(c, p, e, pat)
    ensures r.Some? ==> p + 2 * Width(pat) <= r.value <= |c|
  {
    if Delimiter(c, p, pat) then CloseFrom(c, p + Width(pat), pat) else None
  }

  /** A match is determined by where it starts. */
  lemma MatchDeterministic(c: string, p: nat, e1: nat, e2: nat, pat: Pattern)
    requires IsMatch(c, p, e1, pat) && IsMatch(c, p, e2, pat)
    ensures e1 == e2
  {
    assert MatchEnd(c, p, pat) == Some(e1);
  }
}

=== FILE: preamble.dfy ===
/** `add_graphicx_package`: make sure the generated document loads the
    graphicx package, which the `\includegraphics` replacement text needs. */
module Preamble {
  import opened Options
  import opened Text

  const UsePackage: string := "\\usepackage{graphicx}"
  const DocumentClass: string := "\\documentclass{"
  const BeginDocument: string := "\\begin{document}"

  /** A match of `(\\documentclass\{.*?\}.*?)(\\begin\{document\})`: group 1
      starts at `start`, group 2 starts at `split`. */
  datatype PreambleMatch = PreambleMatch(start: nat, split: nat)

  /** The regex tried at `p` (DOTALL), with its lazy quantifiers resolved:
      `\documentclass{` at `p`, the first `}` after it at `b`, and the first
      `\begin{document}` after that `}` at `d`. */
  ghost predicate MatchesWith(c: string, p: nat, b: nat, d: nat) {
    && OccursAt(c, DocumentClass, p)
    && p + |DocumentClass| <= b && OccursAt(c, "}", b)
    && (forall k :: p + |DocumentClass| <= k < b ==> !OccursAt(c, "}", k))
    && b + 1 <= d && OccursAt(c, BeginDocument, d)
    && (forall k :: b + 1 <= k < d ==> !OccursAt(c, BeginDocument, k))
  }

  /** The regex matches at `p`, with group 2 starting at `d`. */
  ghost predicate PreambleAt(c: string, p: nat, d: nat) {
    exists b: nat :: MatchesWith(c, p, b, d)
  }

  /** The regex tried at `p`: the start of group 2 when it matches. Should
      the first `}` have no `\begin{document}` after it, no later `}` has
      one either, so giving up there is what backtracking concludes too. */
  function TryAt(c: string, p: nat): (r: Option<nat>)
    ensures r.Some? ==> PreambleAt(c, p, r.value)
  {
    if !OccursAt(c, DocumentClass, p) then None
    else
      match IndexFrom(c, "}", p + |DocumentClass|)
      case None => None
      case Some(b) =>
        var r := IndexFrom(c, BeginDocument, b + 1);
        assert r.Some? ==> MatchesWith(c, p, b, r.value);
        r
  }

  /** Wherever the regex matches, TryAt finds that match. */
  lemma TryAtComplete(c: string, p: nat, d: nat)
    requires PreambleAt(c, p, d)
    ensures TryAt(c, p) == Some(d)
  {
    var b: nat :| MatchesWith(c, p, b, d);
    IndexFromLeftmost(c, "}", p + |DocumentClass|, b);
    IndexFromLeftmost(c, BeginDocument, b + 1, d);
  }

  lemma TryAtNone(c: string, p: nat)
    requires TryAt(c, p).None?
    ensures forall d: nat :: !PreambleAt(c, p, d)
  {
    forall d: nat | PreambleAt(c, p, d)
      ensures false
    {
      TryAtComplete(c, p, d);
    }
  }

  /** `re.search` from `p`: the leftmost position where the regex matches. */
  function Search(c: string, p: nat): (r: Option<PreambleMatch>)
    ensures r.Some? ==> p <= r.value.start && PreambleAt(c, r.value.start, r.value.split)
    ensures r.Some? ==> forall q: nat, d: nat :: p <= q < r.value.start ==> !PreambleAt(c, q, d)
    ensures r.None? ==> forall q: nat, d: nat :: p <= q ==> !PreambleAt(c, q, d)
    decreases |c| - p
  {
    if p >= |c| then
      None
    else
      match TryAt(c, p)
      case Some(d) => Some(PreambleMatch(p, d))
      case None =>
        TryAtNone(c, p);
        Search(c, p + 1)
  }

  lemma PreambleBounds(c: string, p: nat, d: nat)
    requires PreambleAt(c, p, d)
    ensures p + |DocumentClass| < d && d + |BeginDocument| <= |c|
  {
  }

  /** `add_graphicx_package`, as written: when the package line is missing,
      rebuild the text from group 1 (so whatever precedes `\documentclass`
      is dropped), a newline, the package line, then group 2 and the rest;
      without a `\documentclass ... \begin{document}` pair, prepend the
      package line. */
  function AddGraphicxPackage(c: string): (r: string)
    ensures Contains(r, UsePackage)
  {
    if Contains(c, UsePackage) then c
    else
      match Search(c, 0)
      case Some(m) =>
        PreambleBounds(c, m.start, m.split);
        var r := c[m.start..m.split] + "\n" + UsePackage + c[m.split..];
        InsertedOccurs(c[m.start..m.split] + "\n", UsePackage, c[m.split..]);
        r
      case None =>
        InsertedOccurs([], UsePackage, "\n" + c);
        assert [] + UsePackage + ("\n" + c) == UsePackage + "\n" + c;
        UsePackage + "\n" + c
  }

  /** The text is left alone exactly when it already loads graphicx. */
  lemma AddGraphicxUnchangedIff(c: string)
    ensures AddGraphicxPackage(c) == c <==> Contains(c, UsePackage)
  {
  }

  /** Adding the package twice is adding it once. */
  lemma AddGraphicxIdempotent(c: string)
    ensures AddGraphicxPackage(AddGraphicxPackage(c)) == AddGraphicxPackage(c)
  {
  }

  /** Without a `\documentclass{..} .. \begin{document}` pair the package
      line goes in front, followed by a newline. */
  lemma AddGraphicxFallback(c: string)
    requires !Contains(c, UsePackage)
    requires forall q: nat, d: nat :: !PreambleAt(c, q, d)
    ensures AddGraphicxPackage(c) == UsePackage + "\n" + c
  {
  }

  /** At the leftmost match, the result runs from `\documentclass` to just
      before `\begin{document}`, then a newline and the package line, then
      `\begin{document}` and everything after it. */
  lemma AddGraphicxAtMatch(c: string, p: nat, d: nat)
    requires !Contains(c, UsePackage)
    requires PreambleAt(c, p, d)
    requires forall q: nat, d': nat :: q < p ==> !PreambleAt(c, q, d')
    ensures p < d <= |c|
    ensures AddGraphicxPackage(c) == c[p..d] + "\n" + UsePackage + c[d..]
  {
    SearchFinds(c, p, d);
  }

  /** `re.search` reports the leftmost match. */
  lemma SearchFinds(c: string, p: nat, d: nat)
    requires PreambleAt(c, p, d)
    requires forall q: nat, d': nat :: q < p ==> !PreambleAt(c, q, d')
    ensures Search(c, 0) == Some(PreambleMatch(p, d))
  {
    var m := Search(c, 0);
    if m.None? {
      assert false;
    } else if m.value.start < p {
      assert false;
    } else if m.value.start > p {
      assert false;
    } else {
      TryAtComplete(c, p, d);
      TryAtComplete(c, p, m.value.split);
    }
  }

  /** The same operation inserting the package line in place, so that the
      text before `\documentclass` survives. */
  function AddGraphicxPackageKeepingPreamble(c: string): (r: string)
    ensures Contains(r, UsePackage)
  {
    if Contains(c, UsePackage) then c
    else
      match Search(c, 0)
      case Some(m) =>
        PreambleBounds(c, m.start, m.split);
        InsertedOccurs(c[..m.split] + "\n", UsePackage, c[m.split..]);
        c[..m.split] + "\n" + UsePackage + c[m.split..]
      case None =>
        InsertedOccurs([], UsePackage, "\n" + c);
        assert [] + UsePackage + ("\n" + c) == UsePackage + "\n" + c;
        UsePackage + "\n" + c
  }

  /** The corrected operation only inserts: the input is the result with
      one block (the package line and a newline) cut out at some index. */
  lemma KeepingPreambleOnlyInserts(c: string)
    ensures var r := AddGraphicxPackageKeepingPreamble(c);
            r == c || exists k: nat :: k <= |c| && (r == c[..k] + "\n" + UsePackage + c[k..]
                                                  || r == c[..k] + UsePackage + "\n" + c[k..])
  {
    var r := AddGraphicxPackageKeepingPreamble(c);
    if !Contains(c, UsePackage) {
      match Search(c, 0)
      case Some(m) =>
        PreambleBounds(c, m.start, m.split);
        assert r == c[..m.split] + "\n" + UsePackage + c[m.split..];
      case None =>
        assert c[..0] == [] && c[0..] == c;
        assert r == c[..0] + UsePackage + "\n" + c[0..];
    }
  }

  lemma KeepingPreambleIdempotent(c: string)
    ensures AddGraphicxPackageKeepingPreamble(AddGraphicxPackageKeepingPreamble(c))
         == AddGraphicxPackageKeepingPreamble(c)
  {
  }

  /** Both versions agree whenever the text starts with its leftmost
      `\documentclass` match, or has none. */
  lemma KeepingPreambleAgrees(c: string)
    requires forall q: nat, d: nat :: 0 < q ==> !PreambleAt(c, q, d)
    ensures AddGraphicxPackageKeepingPreamble(c) == AddGraphicxPackage(c)
  {
    if !Contains(c, UsePackage) {
      var m := Search(c, 0);
      if m.Some? {
        assert m.value.start == 0;
        assert c[..m.value.split] == c[0..m.value.split];
      }
    }
  }

  /** A comment line ahead of `\documentclass`. */
  const Commented: string := "% c\n" + DocumentClass + "a}" + BeginDocument

  lemma CommentedNoPackage()
    ensures !Contains(Commented, UsePackage)
  {
    NoLetterNoPackage(Commented);
  }

  lemma CommentedMatch()
    ensures PreambleAt(Commented, 4, 21)
    ensures forall q: nat, d: nat :: q < 4 ==> !PreambleAt(Commented, q, d)
  {
    MatchAfterPrefix("% c\n", Commented);
  }

  /** Behind a prefix with no backslash, `\documentclass{a}\begin{document}`
      is where the regex first matches. */
  lemma MatchAfterPrefix(pre: string, c: string)
    requires forall k :: 0 <= k < |pre| ==> pre[k] != '\\'
    requires c == pre + DocumentClass + "a}" + BeginDocument
    ensures PreambleAt(c, |pre|, |pre| + 17)
    ensures forall q: nat, d: nat :: q < |pre| ==> !PreambleAt(c, q, d)
  {
    var p := |pre|;
    assert c[p..p + 15] == DocumentClass;
    assert c[p + 16..p + 17] == "}";
    assert c[p + 15..p + 16] == "a";
    assert c[p + 17..p + 33] == BeginDocument;
    assert MatchesWith(c, p, p + 16, p + 17);
    forall q: nat | q < p
      ensures !OccursAt(c, DocumentClass, q)
    {
      assert c[q] == pre[q] && DocumentClass[0] == '\\';
      assert c[q..q + 15][0] != DocumentClass[0];
    }
  }

  /** As written, the `%` comment line ahead of `\documentclass` is gone
      from the result, which is four characters shorter than an insertion
      would be; the corrected version keeps it. */
  lemma AddGraphicxDropsLeadingText()
    ensures var c := Commented;
            var r := AddGraphicxPackage(c);
            && r == c[4..21] + "\n" + UsePackage + c[21..]
            && |r| + 4 == |c| + |"\n" + UsePackage|
            && r[0] != c[0]
            && AddGraphicxPackageKeepingPreamble(c) == c[..21] + "\n" + UsePackage + c[21..]
  {
    CommentedNoPackage();
    CommentedMatch();
    AddGraphicxAtMatch(Commented, 4, 21);
    SearchFinds(Commented, 4, 21);
  }

  /** The package line holds a `p`, so a text without one cannot contain it. */
  lemma NoLetterNoPackage(c: string)
    requires forall k :: 0 <= k < |c| ==> c[k] != 'p'
    ensures !Contains(c, UsePackage)
  {
    match IndexFrom(c, UsePackage, 0)
    case Some(j) =>
      PackageLetter(c, j);
      assert false;
    case None =>
  }

  lemma PackageLetter(c: string, j: nat)
    requires OccursAt(c, UsePackage, j)
    ensures c[j + 4] == 'p'
  {
    assert c[j + 4] == c[j..j + |UsePackage|][4];
  }
}

=== FILE: scanner.dfy ===
/** Python's `re.finditer` / `re.findall` for the delimiter patterns: try a
    match at each position from left to right; after a match, resume at its
    end, otherwise at the next position. */
module Scanner {
  import opened Options
  import opened Patterns

  /** The span `[start, end)` of one match (`match.start(0)`, `match.end(0)`). */
  datatype Match = Match(start: nat, end: nat)

  /** Some match of `ms` covers position `p`. */
  ghost predicate Covers(ms: seq<Match>, p: nat) {
    exists k :: 0 <= k < |ms| && ms[k].start <= p < ms[k].end
  }

  /** Trying `pat` at `p` succeeds. */
  ghost predicate MatchesAt(c: string, p: nat, pat: Pattern) {
    exists e: nat :: IsMatch(c, p, e, pat)
  }

  /** Matches of `pat` starting at or after `i`, in order and without
      overlap. */
  ghost predicate InOrder(c: string, i: nat, pat: Pattern, ms: seq<Match>) {
    && (forall k :: 0 <= k < |ms| ==> i <= ms[k].start)
    && (forall k :: 0 <= k < |ms| ==> IsMatch(c, ms[k].start, ms[k].end, pat))
    && (forall k, l :: 0 <= k < l < |ms| ==> ms[k].end <= ms[l].start)
  }

  /** `ms` is what a left-to-right scan from `i` reports: matches in order,
      and every position from `i` on where `pat` would match lies inside one
      of them. */
  ghost predicate LeftmostMatches(c: string, i: nat, pat: Pattern, ms: seq<Match>) {
    && InOrder(c, i, pat, ms)
    && (forall p: nat :: i <= p && MatchesAt(c, p, pat) ==> Covers(ms, p))
  }

  function FindIter(c: string, i: nat, pat: Pattern): (ms: seq<Match>)
    ensures InOrder(c, i, pat, ms)
    ensures forall k :: 0 <= k < |ms| ==> ms[k].start < ms[k].end <= |c|
    decreases |c| - i
  {
    if i >= |c| then []
    else
      match MatchEnd(c, i, pat)
      case Some(e) =>
        var rest := FindIter(c, e, pat);
        var ms := [Match(i, e)] + rest;
        assert IsMatch(c, i, e, pat);
        assert forall k :: 1 <= k < |ms| ==> ms[k] == rest[k - 1];
        ms
      case None =>
        FindIter(c, i + 1, pat)
  }

  /** The scan reports every match a left-to-right search would find. */
  lemma {:induction false} FindIterLeftmost(c: string, i: nat, pat: Pattern)
    ensures LeftmostMatches(c, i, pat, FindIter(c, i, pat))
    decreases |c| - i
  {
    if i >= |c| {
      EndHasNoMatches(c, i, pat);
    } else {
      match MatchEnd(c, i, pat)
      case Some(e) =>
        FindIterLeftmost(c, e, pat);
        MatchThenRest(c, i, e, pat, FindIter(c, e, pat));
      case None =>
        FindIterLeftmost(c, i + 1, pat);
        NoMatchThenRest(c, i, pat, FindIter(c, i + 1, pat));
    }
  }

  lemma EndHasNoMatches(c: string, i: nat, pat: Pattern)
    requires |c| <= i
    ensures LeftmostMatches(c, i, pat, [])
  {
    forall p: nat | i <= p
      ensures !MatchesAt(c, p, pat)
    {
    }
  }

  /** A match at `i` followed by the scan from its end is the scan from `i`. */
  lemma MatchThenRest(c: string, i: nat, e: nat, pat: Pattern, rest: seq<Match>)
    requires i < e && IsMatch(c, i, e, pat)
    requires LeftmostMatches(c, e, pat, rest)
    ensures LeftmostMatches(c, i, pat, [Match(i, e)] + rest)
  {
    var ms := [Match(i, e)] + rest;
    assert forall k :: 1 <= k < |ms| ==> ms[k] == rest[k - 1];
    MatchThenRestCovers(c, i, e, pat, rest);
  }

  lemma MatchThenRestCovers(c: string, i: nat, e: nat, pat: Pattern, rest: seq<Match>)
    requires i < e
    requires forall p: nat :: e <= p && MatchesAt(c, p, pat) ==> Covers(rest, p)
    ensures forall p: nat :: i <= p && MatchesAt(c, p, pat) ==> Covers([Match(i, e)] + rest, p)
  {
    var ms := [Match(i, e)] + rest;
    forall p: nat | i <= p && MatchesAt(c, p, pat)
      ensures Covers(ms, p)
    {
      if p < e {
        assert ms[0].start <= p < ms[0].end;
      } else {
        var k :| 0 <= k < |rest| && rest[k].start <= p < rest[k].end;
        assert ms[k + 1] == rest[k];
      }
    }
  }

  /** With no match at `i`, the scan from `i` is the scan from `i + 1`. */
  lemma NoMatchThenRest(c: string, i: nat, pat: Pattern, ms: seq<Match>)
    requires MatchEnd(c, i, pat) == None
    requires LeftmostMatches(c, i + 1, pat, ms)
    ensures LeftmostMatches(c, i, pat, ms)
  {
    forall p: nat | i <= p && MatchesAt(c, p, pat)
      ensures Covers(ms, p)
    {
    }
  }

  /** FindIter is the only sequence with the leftmost-scan property. */
  lemma {:induction false} LeftmostMatchesUnique(c: string, i: nat, pat: Pattern, ms: seq<Match>)
    requires LeftmostMatches(c, i, pat, ms)
    ensures ms == FindIter(c, i, pat)
    decreases |c| - i
  {
    if i >= |c| {
      NoMatchesPastEnd(c, i, pat, ms);
    } else {
      match MatchEnd(c, i, pat)
      case Some(e) =>
        ScanStartsWithMatch(c, i, e, pat, ms);
        LeftmostMatchesUnique(c, e, pat, ms[1..]);
        assert ms == [ms[0]] + ms[1..];
      case None =>
        ScanSkipsNoMatch(c, i, pat, ms);
        LeftmostMatchesUnique(c, i + 1, pat, ms);
    }
  }

  lemma NoMatchesPastEnd(c: string, i: nat, pat: Pattern, ms: seq<Match>)
    requires |c| <= i
    requires LeftmostMatches(c, i, pat, ms)
    ensures ms == []
  {
    if ms != [] {
      MatchBounds(c, ms[0].start, ms[0].end, pat);
    }
  }

  /** A leftmost scan from a position where the pattern matches reports that
      match first. */
  lemma ScanStartsWithMatch(c: string, i: nat, e: nat, pat: Pattern, ms: seq<Match>)
    requires MatchEnd(c, i, pat) == Some(e)
    requires LeftmostMatches(c, i, pat, ms)
    ensures ms != [] && ms[0] == Match(i, e)
    ensures LeftmostMatches(c, e, pat, ms[1..])
  {
    assert IsMatch(c, i, e, pat);
    assert MatchesAt(c, i, pat);
    var k :| 0 <= k < |ms| && ms[k].start <= i < ms[k].end;
    MatchBounds(c, ms[0].start, ms[0].end, pat);
    assert ms[0].start <= ms[k].start;
    MatchDeterministic(c, i, ms[0].end, e, pat);
    ScanAfterFirst(c, i, pat, ms);
  }

  lemma ScanAfterFirst(c: string, i: nat, pat: Pattern, ms: seq<Match>)
    requires LeftmostMatches(c, i, pat, ms)
    requires ms != [] && ms[0].start == i
    ensures LeftmostMatches(c, ms[0].end, pat, ms[1..])
  {
    var e := ms[0].end;
    var rest := ms[1..];
    forall p: nat | e <= p && MatchesAt(c, p, pat)
      ensures Covers(rest, p)
    {
      var j :| 0 <= j < |ms| && ms[j].start <= p < ms[j].end;
      assert j != 0;
      assert rest[j - 1] == ms[j];
    }
    forall l | 0 <= l < |rest|
      ensures e <= rest[l].start
    {
      assert rest[l] == ms[l + 1];
    }
  }

  lemma MatchBounds(c: string, p: nat, e: nat, pat: Pattern)
    requires IsMatch(c, p, e, pat)
    ensures p + 2 * Width(pat) <= e <= |c|
  {
    assert MatchEnd(c, p, pat) == Some(e);
  }

  /** A leftmost scan from a position where the pattern fails is a leftmost
      scan from the next position. */
  lemma ScanSkipsNoMatch(c: string, i: nat, pat: Pattern, ms: seq<Match>)
    requires MatchEnd(c, i, pat) == None
    requires LeftmostMatches(c, i, pat, ms)
    ensures LeftmostMatches(c, i + 1, pat, ms)
  {
    forall k | 0 <= k < |ms|
      ensures i + 1 <= ms[k].start
    {
      if k > 0 {
        assert ms[0].end <= ms[k].start;
        assert IsMatch(c, ms[0].start, ms[0].end, pat);
      }
    }
  }

  /** No `$` in the text means no match of any pattern. */
  lemma NoDollarNoMatches(c: string, i: nat, pat: Pattern)
    requires forall k :: 0 <= k < |c| ==> c[k] != '$'
    ensures FindIter(c, i, pat) == []
  {
    var ms := FindIter(c, i, pat);
    assert ms == [] || IsMatch(c, ms[0].start, ms[0].end, pat);
  }
}

=== FILE: sorting.dfy ===
/** Python's `list.sort(key=...)`, as an insertion sort over sequences. */
module Sorting {

  ghost predicate SortedBy<T>(s: seq<T>, key: T -> int) {
    forall i, j :: 0 <= i < j < |s| ==> key(s[i]) <= key(s[j])
  }

  /** Puts `x` in front of the first element whose key is not smaller, so
      `x` lands before the equal-keyed elements that follow it in the input. */
  function Insert<T>(x: T, s: seq<T>, key: T -> int): (r: seq<T>)
    requires SortedBy(s, key)
    ensures SortedBy(r, key)
    ensures multiset(r) == multiset{x} + multiset(s)
    ensures |r| == |s| + 1
    ensures s == [] ==> r == [x]
    ensures s != [] ==> r[0] == x || r[0] == s[0]
  {
    if s == [] || key(x) <= key(s[0]) then [x] + s
    else
      var rest := Insert(x, s[1..], key);
      assert s == [s[0]] + s[1..];
      [s[0]] + rest
  }

  /** The result is ordered by `key` and is a permutation of `s`. */
  function SortBy<T>(s: seq<T>, key: T -> int): (r: seq<T>)
    ensures SortedBy(r, key)
    ensures multiset(r) == multiset(s)
  {
    if s == [] then []
    else
      assert s == [s[0]] + s[1..];
      Insert(s[0], SortBy(s[1..], key), key)
  }

  function Reverse<T>(s: seq<T>): (r: seq<T>)
    ensures |r| == |s|
    ensures forall k :: 0 <= k < |s| ==> r[k] == s[|s| - 1 - k]
  {
    if s == [] then [] else Reverse(s[1..]) + [s[0]]
  }

  lemma {:induction false} InsertLargest<T>(x: T, s: seq<T>, key: T -> int)
    requires SortedBy(s, key)
    requires forall k :: 0 <= k < |s| ==> key(s[k]) < key(x)
    ensures Insert(x, s, key) == s + [x]
    decreases |s|
  {
    if s != [] {
      InsertLargest(x, s[1..], key);
    }
  }

  /** When the keys strictly decrease along `s`, sorting reverses it. */
  lemma {:induction false} SortByDecreasingIsReverse<T>(s: seq<T>, key: T -> int)
    requires forall i, j :: 0 <= i < j < |s| ==> key(s[i]) > key(s[j])
    ensures SortBy(s, key) == Reverse(s)
    decreases |s|
  {
    if s != [] {
      SortByDecreasingIsReverse(s[1..], key);
      var r := SortBy(s[1..], key);
      forall k | 0 <= k < |r|
        ensures key(r[k]) < key(s[0])
      {
        assert r[k] in multiset(s[1..]);
        var i :| 0 <= i < |s[1..]| && s[1..][i] == r[k];
        assert s[i + 1] == r[k];
      }
      InsertLargest(s[0], r, key);
    }
  }

  /** `ok` holds of the elements at every two distinct positions of `s`. */
  ghost predicate Pairwise<T>(s: seq<T>, ok: (T, T) -> bool) {
    forall i, j :: 0 <= i < |s| && 0 <= j < |s| && i != j ==> ok(s[i], s[j])
  }

  lemma PairwiseTail<T>(s: seq<T>, ok: (T, T) -> bool)
    requires s != [] && Pairwise(s, ok)
    ensures Pairwise(s[1..], ok)
  {
    var t := s[1..];
    forall i, j | 0 <= i < |t| && 0 <= j < |t| && i != j
      ensures ok(t[i], t[j])
    {
      assert t[i] == s[i + 1] && t[j] == s[j + 1];
    }
  }

  lemma PairwiseCons<T>(h: T, t: seq<T>, ok: (T, T) -> bool)
    requires Pairwise(t, ok)
    requires forall k :: 0 <= k < |t| ==> ok(h, t[k]) && ok(t[k], h)
    ensures Pairwise([h] + t, ok)
  {
    var r := [h] + t;
    forall i, j | 0 <= i < |r| && 0 <= j < |r| && i != j
      ensures ok(r[i], r[j])
    {
      if i == 0 {
        assert r[j] == t[j - 1];
      } else if j == 0 {
        assert r[i] == t[i - 1];
      } else {
        assert r[i] == t[i - 1] && r[j] == t[j - 1];
      }
    }
  }

  lemma PairwiseSnoc<T>(t: seq<T>, x: T, ok: (T, T) -> bool)
    requires Pairwise(t, ok)
    requires forall k :: 0 <= k < |t| ==> ok(x, t[k]) && ok(t[k], x)
    ensures Pairwise(t + [x], ok)
  {
    var r := t + [x];
    forall i, j | 0 <= i < |r| && 0 <= j < |r| && i != j
      ensures ok(r[i], r[j])
    {
      if i == |t| {
        assert r[j] == t[j];
      } else if j == |t| {
        assert r[i] == t[i];
      } else {
        assert r[i] == t[i] && r[j] == t[j];
      }
    }
  }

  /** Every element of a permutation of `t` is some element of `t`. */
  lemma PermutedWithAll<T>(h: T, t: seq<T>, r: seq<T>, ok: (T, T) -> bool)
    requires multiset(r) <= multiset(t)
    requires forall i :: 0 <= i < |t| ==> ok(h, t[i]) && ok(t[i], h)
    ensures forall k :: 0 <= k < |r| ==> ok(h, r[k]) && ok(r[k], h)
  {
    forall k | 0 <= k < |r|
      ensures ok(h, r[k]) && ok(r[k], h)
    {
      assert r[k] in multiset(r);
      assert r[k] in multiset(t);
      var i :| 0 <= i < |t| && t[i] == r[k];
    }
  }

  /** A property of every pair of distinct positions survives sorting. */
  lemma {:induction false} InsertPairwise<T>(x: T, s: seq<T>, key: T -> int, ok: (T, T) -> bool)
    requires SortedBy(s, key)
    requires Pairwise(s, ok)
    requires forall i :: 0 <= i < |s| ==> ok(x, s[i]) && ok(s[i], x)
    ensures Pairwise(Insert(x, s, key), ok)
    decreases |s|
  {
    if s == [] || key(x) <= key(s[0]) {
      PairwiseCons(x, s, ok);
    } else {
      var t := s[1..];
      PairwiseTail(s, ok);
      assert forall i :: 0 <= i < |t| ==> t[i] == s[i + 1];
      InsertPairwise(x, t, key, ok);
      var rest := Insert(x, t, key);
      assert forall i :: 0 <= i < |t| ==> ok(s[0], t[i]) && ok(t[i], s[0]);
      assert ok(s[0], x) && ok(x, s[0]);
      PermutedWithAll(s[0], [x] + t, rest, ok);
      PairwiseCons(s[0], rest, ok);
    }
  }

  lemma {:induction false} SortByPairwise<T>(s: seq<T>, key: T -> int, ok: (T, T) -> bool)
    requires Pairwise(s, ok)
    ensures Pairwise(SortBy(s, key), ok)
    decreases |s|
  {
    if s != [] {
      var t := s[1..];
      PairwiseTail(s, ok);
      SortByPairwise(t, key, ok);
      var r := SortBy(t, key);
      assert forall i :: 0 <= i < |t| ==> ok(s[0], t[i]) && ok(t[i], s[0]);
      PermutedWithAll(s[0], t, r, ok);
      InsertPairwise(s[0], r, key, ok);
    }
  }
}

=== FILE: span_extractor.dfy ===
/** main.py `extract_equations_with_spans` without the file read: the display
    scan, the inline scan with its containment filter, and the sort by start
    offset. The content is a parameter; a read failure is the caller's
    concern (the source then returns an empty list). */
module SpanExtractor {
  import opened Patterns
  import opened Scanner
  import Sorting
  import Text
  import opened Options

  /** One returned tuple: start offset, end offset, the matched text with its
      delimiters, and whether it is display math. */
  datatype Span = Span(start: nat, end: nat, text: string, isDisplay: bool)

  function KindOf(isDisplay: bool): Pattern {
    if isDisplay then SpanDisplay else SpanInline
  }

  /** `sp` is a match of its kind's pattern in `c` and carries the matched text. */
  ghost predicate IsEquation(c: string, sp: Span) {
    && sp.start <= sp.end <= |c|
    && IsMatch(c, sp.start, sp.end, KindOf(sp.isDisplay))
    && sp.text == c[sp.start..sp.end]
  }

  function StartKey(sp: Span): int {
    sp.start
  }

  /** Spans ordered by position, none overlapping the next. */
  ghost predicate Ascending(spans: seq<Span>) {
    forall k, l :: 0 <= k < l < |spans| ==> spans[k].end <= spans[l].start
  }

  function ToSpan(c: string, m: Match, isDisplay: bool): Span
    requires m.start <= m.end <= |c|
  {
    Span(m.start, m.end, c[m.start..m.end], isDisplay)
  }

  /** The display entries, in scan order. */
  function DisplaySpans(c: string): (r: seq<Span>)
    ensures forall k :: 0 <= k < |r| ==> IsEquation(c, r[k]) && r[k].isDisplay
    ensures Ascending(r)
    ensures forall k :: 0 <= k < |r| ==> r[k].start < r[k].end
  {
    var ms := FindIter(c, 0, SpanDisplay);
    seq(|ms|, k requires 0 <= k < |ms| => ToSpan(c, ms[k], true))
  }

  /** Every position where the display regex matches lies inside a display
      entry: the display scan misses none. */
  lemma DisplaySpansCover(c: string, p: nat)
    requires MatchesAt(c, p, SpanDisplay)
    ensures exists k :: 0 <= k < |DisplaySpans(c)| && DisplaySpans(c)[k].start <= p < DisplaySpans(c)[k].end
  {
    var ms := FindIter(c, 0, SpanDisplay);
    FindIterLeftmost(c, 0, SpanDisplay);
    assert Covers(ms, p);
    var k :| 0 <= k < |ms| && ms[k].start <= p < ms[k].end;
    assert DisplaySpans(c)[k].start == ms[k].start && DisplaySpans(c)[k].end == ms[k].end;
  }

  /** The inner loop of the filter: some collected entry contains `[s, e)`. */
  function ContainedInAny(acc: seq<Span>, s: nat, e: nat): (b: bool)
    ensures b <==> exists k :: 0 <= k < |acc| && acc[k].start <= s && e <= acc[k].end
  {
    if acc == [] then false
    else if s >= acc[0].start && e <= acc[0].end then true
    else
      var b := ContainedInAny(acc[1..], s, e);
      assert forall k :: 1 <= k < |acc| ==> acc[k] == acc[1..][k - 1];
      b
  }

  /** The outer loop of the filter: each inline match, in scan order, is
      appended unless an entry collected so far (display or inline) contains it. */
  function CollectInline(c: string, acc: seq<Span>, ms: seq<Match>): (r: seq<Span>)
    requires forall k :: 0 <= k < |ms| ==> ms[k].start <= ms[k].end <= |c|
    ensures |acc| <= |r| <= |acc| + |ms| && r[..|acc|] == acc
    decreases |ms|
  {
    if ms == [] then acc
    else
      var m := ms[0];
      var next := if ContainedInAny(acc, m.start, m.end) then acc else acc + [ToSpan(c, m, false)];
      CollectInline(c, next, ms[1..])
  }

  /** Reference filter: the inline matches not inside any of `displays`. */
  function KeepUncovered(c: string, displays: seq<Span>, ms: seq<Match>): (r: seq<Span>)
    requires forall k :: 0 <= k < |ms| ==> ms[k].start <= ms[k].end <= |c|
    ensures |r| <= |ms|
    decreases |ms|
  {
    if ms == [] then []
    else
      var m := ms[0];
      (if ContainedInAny(displays, m.start, m.end) then [] else [ToSpan(c, m, false)])
        + KeepUncovered(c, displays, ms[1..])
  }

  /** The filter keeps the uncovered matches and nothing else. */
  lemma {:induction false} KeepUncoveredMembers(c: string, displays: seq<Span>, ms: seq<Match>)
    requires forall k :: 0 <= k < |ms| ==> ms[k].start <= ms[k].end <= |c|
    ensures forall sp :: sp in KeepUncovered(c, displays, ms) <==>
      exists k :: 0 <= k < |ms| && sp == ToSpan(c, ms[k], false)
                  && !ContainedInAny(displays, ms[k].start, ms[k].end)
    decreases |ms|
  {
    if ms != [] {
      var tail := ms[1..];
      assert forall k :: 1 <= k < |ms| ==> ms[k] == tail[k - 1];
      KeepUncoveredMembers(c, displays, tail);
    }
  }

  lemma {:induction false} KeepUncoveredAscending(c: string, displays: seq<Span>, ms: seq<Match>)
    requires forall k :: 0 <= k < |ms| ==> ms[k].start <= ms[k].end <= |c|
    requires forall k, l :: 0 <= k < l < |ms| ==> ms[k].end <= ms[l].start
    ensures Ascending(KeepUncovered(c, displays, ms))
    decreases |ms|
  {
    if ms != [] {
      var tail := ms[1..];
      assert forall k :: 0 <= k < |tail| ==> tail[k] == ms[k + 1];
      KeepUncoveredAscending(c, displays, tail);
      KeepUncoveredMembers(c, displays, tail);
      var rest := KeepUncovered(c, displays, tail);
      forall sp | sp in rest
        ensures ms[0].end <= sp.start
      {
        var k :| 0 <= k < |tail| && sp == ToSpan(c, tail[k], false)
                  && !ContainedInAny(displays, tail[k].start, tail[k].end);
      }
    }
  }

  /** The inline entries the source keeps, in scan order. */
  function KeptInline(c: string): (r: seq<Span>)
    ensures forall k :: 0 <= k < |r| ==> IsEquation(c, r[k]) && !r[k].isDisplay
    ensures Ascending(r)
  {
    var ms := FindIter(c, 0, SpanInline);
    var r := KeepUncovered(c, DisplaySpans(c), ms);
    KeepUncoveredAscending(c, DisplaySpans(c), ms);
    KeepUncoveredMembers(c, DisplaySpans(c), ms);
    forall k | 0 <= k < |r|
      ensures IsEquation(c, r[k]) && !r[k].isDisplay
    {
      assert r[k] in r;
    }
    r
  }

  /** Checking against every entry collected so far, earlier inline entries
      included, keeps exactly the inline matches that lie inside no display
      entry: an inline match never lies inside an earlier one. */
  lemma {:induction false} CollectIsFilter(c: string, displays: seq<Span>, kept: seq<Span>, ms: seq<Match>)
    requires forall k :: 0 <= k < |ms| ==> ms[k].start < ms[k].end <= |c|
    requires forall k, l :: 0 <= k < l < |ms| ==> ms[k].end <= ms[l].start
    requires ms != [] ==> forall k :: 0 <= k < |kept| ==> kept[k].end <= ms[0].start
    ensures CollectInline(c, displays + kept, ms) == displays + kept + KeepUncovered(c, displays, ms)
    decreases |ms|
  {
    if ms != [] {
      var m := ms[0];
      var acc := displays + kept;
      var tail := ms[1..];
      var head := if ContainedInAny(displays, m.start, m.end) then [] else [ToSpan(c, m, false)];
      assert CollectInline(c, acc, ms) == CollectInline(c, displays + (kept + head), tail) by {
        ContainedInAnyIgnoresEarlier(displays, kept, m.start, m.end);
        Text.ConcatAssoc(displays, kept, head);
        assert (if ContainedInAny(acc, m.start, m.end) then acc else acc + [ToSpan(c, m, false)]) == acc + head;
      }
      assert KeepUncovered(c, displays, ms) == head + KeepUncovered(c, displays, tail);
      assert forall k :: 0 <= k < |tail| ==> tail[k] == ms[k + 1];
      if tail != [] {
        KeptEndBefore(c, kept, head, m, tail[0].start);
      }
      CollectIsFilter(c, displays, kept + head, tail);
      Text.ConcatRegroup(displays, kept, head, KeepUncovered(c, displays, tail));
    }
  }

  lemma KeptEndBefore(c: string, kept: seq<Span>, head: seq<Span>, m: Match, next: nat)
    requires m.start <= m.end <= next && m.end <= |c|
    requires forall k :: 0 <= k < |kept| ==> kept[k].end <= m.start
    requires head == [] || head == [ToSpan(c, m, false)]
    ensures forall k :: 0 <= k < |kept + head| ==> (kept + head)[k].end <= next
  {
  }

  /** Entries that end before `s` cannot contain `[s, e)`. */
  lemma ContainedInAnyIgnoresEarlier(displays: seq<Span>, kept: seq<Span>, s: nat, e: nat)
    requires s < e
    requires forall k :: 0 <= k < |kept| ==> kept[k].end <= s
    ensures ContainedInAny(displays + kept, s, e) == ContainedInAny(displays, s, e)
  {
    var acc := displays + kept;
    assert forall j :: |displays| <= j < |acc| ==> acc[j] == kept[j - |displays|];
    if ContainedInAny(acc, s, e) {
      var k :| 0 <= k < |acc| && acc[k].start <= s && e <= acc[k].end;
      assert acc[k] == displays[k];
    }
    if ContainedInAny(displays, s, e) {
      var k :| 0 <= k < |displays| && displays[k].start <= s && e <= displays[k].end;
      assert acc[k] == displays[k];
    }
  }

  /** main.py `extract_equations_with_spans` on already-read content. */
  function ExtractEquationsWithSpans(c: string): (r: seq<Span>)
    ensures forall k :: 0 <= k < |r| ==> IsEquation(c, r[k])
    ensures Sorting.SortedBy(r, StartKey)
    ensures multiset(r) == multiset(DisplaySpans(c) + KeptInline(c))
  {
    var displays := DisplaySpans(c);
    var inline := FindIter(c, 0, SpanInline);
    var collected := CollectInline(c, displays, inline);
    CollectIsFilter(c, displays, [], inline);
    assert displays + [] == displays;
    var r := Sorting.SortBy(collected, StartKey);
    forall k | 0 <= k < |r|
      ensures IsEquation(c, r[k])
    {
      assert r[k] in multiset(collected);
      assert r[k] in collected;
      var kept := KeptInline(c);
      if r[k] !in displays {
        assert r[k] in kept;
      }
    }
    r
  }

  /** Display entries are `$$`, an interior holding no `$$`, `$$`; inline
      entries are `$`, an interior holding no `$`, `$`. */
  lemma EquationShape(c: string, sp: Span)
    requires IsEquation(c, sp)
    ensures var t := sp.text; sp.isDisplay ==>
      && |t| >= 4 && t[..2] == "$$" && t[|t| - 2..] == "$$"
      && !Text.Contains(t[2..|t| - 2], "$$")
    ensures var t := sp.text; !sp.isDisplay ==>
      && |t| >= 2 && t[0] == '$' && t[|t| - 1] == '$'
      && forall k :: 0 < k < |t| - 1 ==> t[k] != '$'
  {
    if sp.isDisplay {
      DisplayShape(c, sp);
    } else {
      InlineShape(c, sp);
    }
  }

  lemma DisplayShape(c: string, sp: Span)
    requires IsEquation(c, sp) && sp.isDisplay
    ensures var t := sp.text;
      && |t| >= 4 && t[..2] == "$$" && t[|t| - 2..] == "$$"
      && !Text.Contains(t[2..|t| - 2], "$$")
  {
    var t := sp.text;
    var p, e := sp.start, sp.end;
    MatchBounds(c, p, e, SpanDisplay);
    var m := t[2..|t| - 2];
    assert m == c[p + 2..e - 2];
    forall j: nat | j + 2 <= |m|
      ensures !Text.OccursAt(m, "$$", j)
    {
      assert InteriorChar(c, p + 2 + j, SpanDisplay);
      assert m[j] == c[p + 2 + j] && m[j + 1] == c[p + 3 + j];
      assert m[j..j + 2][0] == m[j];
      assert m[j..j + 2][1] == m[j + 1];
    }
  }

  lemma InlineShape(c: string, sp: Span)
    requires IsEquation(c, sp) && !sp.isDisplay
    ensures var t := sp.text;
      && |t| >= 2 && t[0] == '$' && t[|t| - 1] == '$'
      && forall k :: 0 < k < |t| - 1 ==> t[k] != '$'
  {
    var t := sp.text;
    var p := sp.start;
    MatchBounds(c, p, sp.end, SpanInline);
    forall k | 0 < k < |t| - 1
      ensures t[k] != '$'
    {
      assert t[k] == c[p + k];
      assert InteriorChar(c, p + k, SpanInline);
    }
  }

  /** No opening or closing delimiter of an entry follows a backslash. */
  lemma DelimitersNotEscaped(c: string, sp: Span)
    requires IsEquation(c, sp)
    ensures sp.start == 0 || c[sp.start - 1] != '\\'
    ensures var q := sp.end - Width(KindOf(sp.isDisplay)); 1 <= q && c[q - 1] != '\\'
  {
    MatchBounds(c, sp.start, sp.end, KindOf(sp.isDisplay));
  }

  /** An inline match is returned exactly when no display entry contains it;
      every display entry is returned. */
  lemma InlineKeptIff(c: string, m: Match)
    requires m in FindIter(c, 0, SpanInline)
    ensures m.start <= m.end <= |c|
    ensures ToSpan(c, m, false) in ExtractEquationsWithSpans(c)
            <==> !ContainedInAny(DisplaySpans(c), m.start, m.end)
  {
    var r := ExtractEquationsWithSpans(c);
    var sp := ToSpan(c, m, false);
    var displays := DisplaySpans(c);
    InKeptIff(c, m);
    assert sp in r <==> sp in multiset(displays + KeptInline(c));
    assert sp !in displays;
  }

  lemma InKeptIff(c: string, m: Match)
    requires m in FindIter(c, 0, SpanInline)
    ensures m.start <= m.end <= |c|
    ensures ToSpan(c, m, false) in KeptInline(c) <==> !ContainedInAny(DisplaySpans(c), m.start, m.end)
  {
    KeepUncoveredMember(c, DisplaySpans(c), FindIter(c, 0, SpanInline), m);
  }

  lemma KeepUncoveredMember(c: string, displays: seq<Span>, ms: seq<Match>, m: Match)
    requires forall k :: 0 <= k < |ms| ==> ms[k].start <= ms[k].end <= |c|
    requires m in ms
    ensures m.start <= m.end <= |c|
    ensures ToSpan(c, m, false) in KeepUncovered(c, displays, ms)
            <==> !ContainedInAny(displays, m.start, m.end)
  {
    var k :| 0 <= k < |ms| && ms[k] == m;
    var r := KeepUncovered(c, displays, ms);
    KeepUncoveredMembers(c, displays, ms);
    if ToSpan(c, m, false) in r {
      var j :| 0 <= j < |ms| && ToSpan(c, m, false) == ToSpan(c, ms[j], false)
                && !ContainedInAny(displays, ms[j].start, ms[j].end);
      assert ms[j] == m;
    }
  }

  lemma DisplaysReturned(c: string, sp: Span)
    requires sp in DisplaySpans(c)
    ensures sp in ExtractEquationsWithSpans(c)
  {
    assert sp in multiset(DisplaySpans(c) + KeptInline(c));
  }

  /** Two returned entries of the same kind never overlap. */
  lemma SameKindDisjoint(c: string)
    ensures var r := ExtractEquationsWithSpans(c);
            forall a, b :: a in r && b in r && a != b && a.isDisplay == b.isDisplay ==>
              a.end <= b.start || b.end <= a.start
  {
    var r := ExtractEquationsWithSpans(c);
    var displays := DisplaySpans(c);
    var kept := KeptInline(c);
    forall a, b | a in r && b in r && a != b && a.isDisplay == b.isDisplay
      ensures a.end <= b.start || b.end <= a.start
    {
      assert a in multiset(displays + kept) && b in multiset(displays + kept);
      if a.isDisplay {
        assert a !in kept && b !in kept;
        AscendingMembersDisjoint(displays, a, b);
      } else {
        assert a !in displays && b !in displays;
        AscendingMembersDisjoint(kept, a, b);
      }
    }
  }

  lemma AscendingMembersDisjoint(spans: seq<Span>, a: Span, b: Span)
    requires Ascending(spans) && a in spans && b in spans && a != b
    ensures a.end <= b.start || b.end <= a.start
  {
    var i :| 0 <= i < |spans| && spans[i] == a;
    var j :| 0 <= j < |spans| && spans[j] == b;
  }

  lemma ExtractEmpty()
    ensures ExtractEquationsWithSpans("") == []
  {
    var ds := DisplaySpans("");
    var ks := KeptInline("");
    assert |ds| == 0 && |ks| == 0;
    assert multiset(ExtractEquationsWithSpans("")) == multiset{};
  }

  /** Neither span reaches into the other. */
  predicate Disjoint(a: Span, b: Span) {
    a.end <= b.start || b.end <= a.start
  }

  /** Some collected entry shares a position with `[s, e)`. */
  function OverlapsAny(acc: seq<Span>, s: nat, e: nat): (b: bool)
    ensures b <==> exists k :: 0 <= k < |acc| && acc[k].start < e && s < acc[k].end
  {
    if acc == [] then false
    else if acc[0].start < e && s < acc[0].end then true
    else
      var b := OverlapsAny(acc[1..], s, e);
      assert forall k :: 1 <= k < |acc| ==> acc[k] == acc[1..][k - 1];
      b
  }

  /** The filter with the overlap test the surrounding code calls for: an
      inline match is dropped when it shares a position with any entry
      collected so far. */
  function CollectInlineDisjoint(c: string, acc: seq<Span>, ms: seq<Match>): seq<Span>
    requires forall k :: 0 <= k < |ms| ==> ms[k].start <= ms[k].end <= |c|
    decreases |ms|
  {
    if ms == [] then acc
    else
      var m := ms[0];
      var next := if OverlapsAny(acc, m.start, m.end) then acc else acc + [ToSpan(c, m, false)];
      CollectInlineDisjoint(c, next, ms[1..])
  }

  /** The overlap filter keeps only equations and never lets two entries
      share a position. */
  lemma {:induction false} CollectDisjointInvariant(c: string, acc: seq<Span>, ms: seq<Match>)
    requires forall k :: 0 <= k < |ms| ==> ms[k].start <= ms[k].end <= |c|
    requires forall k :: 0 <= k < |ms| ==> IsMatch(c, ms[k].start, ms[k].end, SpanInline)
    requires forall k :: 0 <= k < |acc| ==> IsEquation(c, acc[k])
    requires Sorting.Pairwise(acc, Disjoint)
    ensures var r := CollectInlineDisjoint(c, acc, ms);
            (forall k :: 0 <= k < |r| ==> IsEquation(c, r[k])) && Sorting.Pairwise(r, Disjoint)
    decreases |ms|
  {
    if ms != [] {
      var m := ms[0];
      var tail := ms[1..];
      assert forall k :: 0 <= k < |tail| ==> tail[k] == ms[k + 1];
      var next := if OverlapsAny(acc, m.start, m.end) then acc else acc + [ToSpan(c, m, false)];
      if !OverlapsAny(acc, m.start, m.end) {
        var sp := ToSpan(c, m, false);
        assert IsEquation(c, sp);
        forall k | 0 <= k < |acc|
          ensures Disjoint(sp, acc[k]) && Disjoint(acc[k], sp)
        {
        }
        Sorting.PairwiseSnoc(acc, sp, Disjoint);
        assert forall k :: 0 <= k < |acc| ==> next[k] == acc[k];
      }
      CollectDisjointInvariant(c, next, tail);
    }
  }

  /** Spans in ascending order are pairwise disjoint. */
  lemma AscendingPairwise(spans: seq<Span>)
    requires Ascending(spans)
    ensures Sorting.Pairwise(spans, Disjoint)
  {
  }

  /** Sorted by start, pairwise disjoint and non-empty: ascending. */
  lemma SortedDisjointAscending(c: string, r: seq<Span>)
    requires Sorting.SortedBy(r, StartKey)
    requires Sorting.Pairwise(r, Disjoint)
    requires forall k :: 0 <= k < |r| ==> IsEquation(c, r[k])
    ensures Ascending(r)
  {
    forall k, l | 0 <= k < l < |r|
      ensures r[k].end <= r[l].start
    {
      assert StartKey(r[k]) <= StartKey(r[l]);
      assert Disjoint(r[k], r[l]);
      MatchBounds(c, r[l].start, r[l].end, KindOf(r[l].isDisplay));
    }
  }

  /** main.py `extract_equations_with_spans` with an overlap test in place of
      the containment test: the entries come out sorted by start and no two
      of them share a position, so each can be replaced on its own. */
  function ExtractEquationsDisjoint(c: string): (r: seq<Span>)
    ensures forall k :: 0 <= k < |r| ==> IsEquation(c, r[k])
    ensures Ascending(r)
  {
    var displays := DisplaySpans(c);
    var ms := FindIter(c, 0, SpanInline);
    AscendingPairwise(displays);
    CollectDisjointInvariant(c, displays, ms);
    var collected := CollectInlineDisjoint(c, displays, ms);
    Sorting.SortByPairwise(collected, StartKey, Disjoint);
    var r := Sorting.SortBy(collected, StartKey);
    forall k | 0 <= k < |r|
      ensures IsEquation(c, r[k])
    {
      assert r[k] in multiset(collected);
      assert r[k] in collected;
    }
    SortedDisjointAscending(c, r);
    r
  }

  /** Inline `a`, then display `b`, written with no space between them. */
  const Adjacent: string := "$a$$$b$$"

  /** As written, the containment test lets through an inline entry that
      overlaps a display entry: in `$a$$$b$$` the display scan takes
      `$$$b$$` (offsets 2 to 8), and the inline match `$a$` (0 to 3) is not
      inside it, so both are returned although they share offset 2. */
  lemma ContainmentAdmitsOverlap()
    ensures var a := Span(0, 3, "$a$", false);
            var b := Span(2, 8, "$$$b$$", true);
            && a in ExtractEquationsWithSpans(Adjacent)
            && b in ExtractEquationsWithSpans(Adjacent)
            && !Disjoint(a, b)
  {
    AdjacentDisplayKept();
    AdjacentInlineKept();
  }

  /** Exactly the two overlapping entries come back, the inline one first. */
  lemma AdjacentExtracted()
    ensures ExtractEquationsWithSpans(Adjacent)
         == [Span(0, 3, "$a$", false), Span(2, 8, "$$$b$$", true)]
  {
    AdjacentDisplaySpans();
    AdjacentKept();
    SortedPair(ExtractEquationsWithSpans(Adjacent), Span(0, 3, "$a$", false), Span(2, 8, "$$$b$$", true));
  }

  /** Two entries with different starts, sorted by start, come in that order. */
  lemma SortedPair(r: seq<Span>, a: Span, b: Span)
    requires multiset(r) == multiset([b] + [a]) && a.start < b.start
    requires Sorting.SortedBy(r, StartKey)
    ensures r == [a, b]
  {
    assert |r| == |multiset(r)| == 2;
    assert r == [r[0]] + [r[1]];
    assert r[0] in multiset(r) && r[1] in multiset(r);
    assert StartKey(r[0]) <= StartKey(r[1]);
    assert multiset(r) == multiset{r[0], r[1]};
  }

  /** The overlap test keeps the display entry only: the inline `$a$`
      shares offset 2 with it and is dropped, so `$a` would stay in the
      text with an unbalanced `$`. */
  lemma AdjacentDisjointKeepsDisplay()
    ensures ExtractEquationsDisjoint(Adjacent) == [Span(2, 8, "$$$b$$", true)]
  {
    var b := Span(2, 8, "$$$b$$", true);
    AdjacentDisplaySpans();
    AdjacentInlineAll();
    DropAllThree(Adjacent, b, Match(0, 3), Match(3, 5), Match(6, 8));
    var r := ExtractEquationsDisjoint(Adjacent);
    SortSingleton(r, [b]);
  }

  /** Against one display entry that all three matches overlap, the overlap
      filter keeps only the display entry. */
  lemma DropAllThree(c: string, d: Span, m0: Match, m1: Match, m2: Match)
    requires m0.start <= m0.end <= |c| && m1.start <= m1.end <= |c| && m2.start <= m2.end <= |c|
    requires OverlapsAny([d], m0.start, m0.end)
    requires OverlapsAny([d], m1.start, m1.end) && OverlapsAny([d], m2.start, m2.end)
    ensures CollectInlineDisjoint(c, [d], [m0, m1, m2]) == [d]
  {
    var ms := [m0, m1, m2];
    assert ms[1..] == [m1, m2] && ms[1..][1..] == [m2] && [m2][1..] == [];
    assert CollectInlineDisjoint(c, [d], [m2]) == [d];
    assert CollectInlineDisjoint(c, [d], [m1, m2]) == [d];
  }

  lemma SortSingleton(r: seq<Span>, one: seq<Span>)
    requires |one| == 1 && multiset(r) == multiset(one)
    ensures r == one
  {
    assert |r| == |multiset(r)|;
    assert r[0] in multiset(one);
  }

  /** Of the inline matches only `$a$` escapes the display entry. */
  lemma AdjacentKept()
    ensures KeptInline(Adjacent) == [Span(0, 3, "$a$", false)]
  {
    AdjacentDisplaySpans();
    AdjacentInlineAll();
    KeptFirstOfThree(Adjacent, Span(2, 8, "$$$b$$", true), Match(0, 3), Match(3, 5), Match(6, 8));
    AdjacentChars();
    InlineA(Adjacent);
  }

  /** The first three characters of `$a$$$b$$`, read as a slice. */
  lemma InlineA(c: string)
    requires |c| >= 3 && c[0] == '$' && c[1] == 'a' && c[2] == '$'
    ensures c[0..3] == "$a$"
  {
  }

  /** With one display entry and three inline matches, only the first of
      which escapes it, the kept inline entries are that first match. */
  lemma KeptFirstOfThree(c: string, d: Span, m0: Match, m1: Match, m2: Match)
    requires DisplaySpans(c) == [d] && FindIter(c, 0, SpanInline) == [m0, m1, m2]
    requires m0.start <= m0.end <= |c| && m1.start <= m1.end <= |c| && m2.start <= m2.end <= |c|
    requires !ContainedInAny([d], m0.start, m0.end)
    requires ContainedInAny([d], m1.start, m1.end) && ContainedInAny([d], m2.start, m2.end)
    ensures KeptInline(c) == [ToSpan(c, m0, false)]
  {
    KeepFirstOfThree(c, d, m0, m1, m2);
  }

  /** Against one display entry, only the first of three matches is kept. */
  lemma KeepFirstOfThree(c: string, d: Span, m0: Match, m1: Match, m2: Match)
    requires m0.start <= m0.end <= |c| && m1.start <= m1.end <= |c| && m2.start <= m2.end <= |c|
    requires !ContainedInAny([d], m0.start, m0.end)
    requires ContainedInAny([d], m1.start, m1.end) && ContainedInAny([d], m2.start, m2.end)
    ensures KeepUncovered(c, [d], [m0, m1, m2]) == [ToSpan(c, m0, false)]
  {
    var ms := [m0, m1, m2];
    assert ms[1..] == [m1, m2] && ms[1..][1..] == [m2] && [m2][1..] == [];
    assert KeepUncovered(c, [d], [m2]) == [];
    assert KeepUncovered(c, [d], [m1, m2]) == [];
  }

  /** The inline scan of `$a$$$b$$`: `$a$`, then the empty `$$` twice. */
  lemma AdjacentInlineAll()
    ensures FindIter(Adjacent, 0, SpanInline) == [Match(0, 3), Match(3, 5), Match(6, 8)]
  {
    AdjacentInlineFirst();
    AdjacentInlineSecond();
    AdjacentInlineThird();
    assert FindIter(Adjacent, 8, SpanInline) == [];
    assert FindIter(Adjacent, 5, SpanInline) == FindIter(Adjacent, 6, SpanInline);
  }

  /** The scan sees the characters of `$a$$$b$$` one by one. */
  lemma AdjacentChars()
    ensures var c := Adjacent;
            && c[0] == '$' && c[1] == 'a' && c[2] == '$' && c[3] == '$' && c[4] == '$'
            && c[5] == 'b' && c[6] == '$' && c[7] == '$' && |c| == 8
  {
  }

  lemma AdjacentInlineFirst()
    ensures MatchEnd(Adjacent, 0, SpanInline) == Some(3)
  {
    AdjacentChars();
    assert IsMatch(Adjacent, 0, 3, SpanInline);
  }

  lemma AdjacentInlineSecond()
    ensures MatchEnd(Adjacent, 3, SpanInline) == Some(5)
    ensures MatchEnd(Adjacent, 5, SpanInline).None?
  {
    AdjacentChars();
    assert IsMatch(Adjacent, 3, 5, SpanInline);
  }

  lemma AdjacentInlineThird()
    ensures MatchEnd(Adjacent, 6, SpanInline) == Some(8)
  {
    AdjacentChars();
    assert IsMatch(Adjacent, 6, 8, SpanInline);
  }

  lemma AdjacentDisplaySpans()
    ensures DisplaySpans(Adjacent) == [Span(2, 8, "$$$b$$", true)]
  {
    AdjacentDisplays();
    assert Adjacent[2..8] == "$$$b$$";
  }

  lemma AdjacentDisplayKept()
    ensures Span(2, 8, "$$$b$$", true) in ExtractEquationsWithSpans(Adjacent)
  {
    AdjacentDisplaySpans();
    DisplaysReturned(Adjacent, Span(2, 8, "$$$b$$", true));
  }

  lemma AdjacentInlineKept()
    ensures Span(0, 3, "$a$", false) in ExtractEquationsWithSpans(Adjacent)
  {
    AdjacentDisplaySpans();
    AdjacentInline();
    assert Adjacent[0..3] == "$a$";
    assert !ContainedInAny(DisplaySpans(Adjacent), 0, 3);
    InlineKeptIff(Adjacent, Match(0, 3));
  }

  lemma AdjacentDisplays()
    ensures FindIter(Adjacent, 0, SpanDisplay) == [Match(2, 8)]
  {
    var c := Adjacent;
    assert c[0] == '$' && c[1] == 'a' && c[2] == '$' && c[3] == '$' && c[4] == '$'
        && c[5] == 'b' && c[6] == '$' && c[7] == '$' && |c| == 8;
    assert MatchEnd(c, 0, SpanDisplay).None?;
    assert MatchEnd(c, 1, SpanDisplay).None?;
    assert IsMatch(c, 2, 8, SpanDisplay);
    assert MatchEnd(c, 2, SpanDisplay) == Some(8);
    assert FindIter(c, 8, SpanDisplay) == [];
    assert FindIter(c, 0, SpanDisplay) == FindIter(c, 1, SpanDisplay);
    assert FindIter(c, 1, SpanDisplay) == FindIter(c, 2, SpanDisplay);
  }

  lemma AdjacentInline()
    ensures Match(0, 3) in FindIter(Adjacent, 0, SpanInline)
  {
    var c := Adjacent;
    assert c[0] == '$' && c[1] == 'a' && c[2] == '$' && |c| == 8;
    assert IsMatch(c, 0, 3, SpanInline);
    assert MatchEnd(c, 0, SpanInline) == Some(3);
    assert FindIter(c, 0, SpanInline)[0] == Match(0, 3);
  }
}

=== FILE: splice.dfy ===
/** main.py replace sub-mode: the text that replaces each rendered equation
    and the splice that applies those replacements to the document in
    descending start order. */
module Splice {
  import opened SpanExtractor
  import Interactive
  import Sorting
  import Text

  /** `(start_idx, end_idx, replacement_text)`. */
  datatype Edit = Edit(start: nat, end: nat, text: string)

  const CenterOpen := "\n\\begin{center}\n"
  const CenterClose := "\n\\end{center}\n"
  const Include := "\\includegraphics{"
  const RaiseOpen := "\\raisebox{-0.2\\height}{"
  const RaiseClose := "}"
  const IncludeScaled := "\\includegraphics[width=0.15\\linewidth]{"

  /** The `\includegraphics` command for `name`, with the option part `inc`
      ahead of the braced name. */
  function Command(inc: string, name: string): string {
    inc + name + "}"
  }

  /** Display math becomes a centred picture; inline math becomes a picture
      lowered by a fifth of its height and scaled to 15% of the line width. */
  function ReplacementText(isDisplay: bool, name: string): (r: string)
    ensures Text.Contains(r, name)
    ensures isDisplay ==> && Text.StartsWith(r, CenterOpen) && Text.EndsWith(r, CenterClose)
                          && Text.Contains(r, Command(Include, name))
    ensures !isDisplay ==> && Text.StartsWith(r, RaiseOpen) && Text.EndsWith(r, RaiseClose)
                           && Text.Contains(r, Command(IncludeScaled, name))
    ensures isDisplay ==> |r| > 0 && r[0] == '\n' && r[|r| - 1] == '\n'
    ensures !isDisplay ==> |r| > 0 && r[0] == '\\' && r[|r| - 1] == '}'
  {
    var open := if isDisplay then CenterOpen else RaiseOpen;
    var close := if isDisplay then CenterClose else RaiseClose;
    var inc := if isDisplay then Include else IncludeScaled;
    Framed(open, inc, name, close);
    open + Command(inc, name) + close
  }

  /** What a framed command shows: the frame at both ends, the command and
      the name inside. */
  lemma Framed(open: string, inc: string, name: string, close: string)
    requires |open| > 0 && |close| > 0
    ensures var r := open + Command(inc, name) + close;
            && Text.StartsWith(r, open) && Text.EndsWith(r, close)
            && Text.Contains(r, Command(inc, name)) && Text.Contains(r, name)
            && r[0] == open[0] && r[|r| - 1] == close[|close| - 1]
  {
    var cmd := Command(inc, name);
    FramedEnds(open, cmd, close);
    Text.InsertedOccurs(open, cmd, close);
    Text.InsertedOccurs(open + inc, name, "}" + close);
    Regrouped(open, inc, name, close);
  }

  lemma FramedEnds(open: string, mid: string, close: string)
    requires |open| > 0 && |close| > 0
    ensures var r := open + mid + close;
            && Text.StartsWith(r, open) && Text.EndsWith(r, close)
            && r[0] == open[0] && r[|r| - 1] == close[|close| - 1]
  {
    var r := open + mid + close;
    assert r[..|open|] == open;
    assert r[|r| - |close|..] == close;
  }

  /** The replacement text tells the kind of equation and the image it shows. */
  lemma ReplacementTextInjective(d1: bool, n1: string, d2: bool, n2: string)
    ensures ReplacementText(d1, n1) == ReplacementText(d2, n2) <==> d1 == d2 && n1 == n2
  {
    if ReplacementText(d1, n1) == ReplacementText(d2, n2) {
      SameReplacementText(d1, n1, d2, n2);
    }
  }

  lemma SameReplacementText(d1: bool, n1: string, d2: bool, n2: string)
    requires ReplacementText(d1, n1) == ReplacementText(d2, n2)
    ensures d1 == d2 && n1 == n2
  {
    assert d1 == d2 by {
      var r := ReplacementText(d1, n1);
      assert r[0] == '\n' <==> d1;
      assert r[0] == '\n' <==> d2;
    }
    var open := if d1 then CenterOpen else RaiseOpen;
    var inc := if d1 then Include else IncludeScaled;
    var close := if d1 then CenterClose else RaiseClose;
    Regrouped(open, inc, n1, close);
    Regrouped(open, inc, n2, close);
    Text.StripAround(open + inc, n1, n2, "}" + close);
  }

  lemma Regrouped(open: string, inc: string, name: string, close: string)
    ensures open + Command(inc, name) + close == (open + inc) + name + ("}" + close)
  {
  }

  /** The edit for the equation at index `i` when its image was rendered. */
  function EditOf(eqs: seq<Span>, base: string, i: nat): (r: Edit)
    requires i < |eqs|
    ensures r.start == eqs[i].start && r.end == eqs[i].end
    ensures Text.Contains(r.text, Interactive.ImageName(base, i))
    ensures |r.text| > 0 && (r.text[0] == '\n' <==> eqs[i].isDisplay)
  {
    Edit(eqs[i].start, eqs[i].end, ReplacementText(eqs[i].isDisplay, Interactive.ImageName(base, i)))
  }

  /** The indices from `i` below `n` whose rendering did not fail, in
      ascending order. */
  function RenderedFrom(n: nat, failed: set<nat>, i: nat): (ks: seq<nat>)
    ensures forall j :: j in ks <==> i <= j < n && j !in failed
    ensures forall a, b :: 0 <= a < b < |ks| ==> ks[a] < ks[b]
    decreases n - i
  {
    if i >= n then []
    else
      var rest := RenderedFrom(n, failed, i + 1);
      if i in failed then rest
      else
        assert forall b :: 0 <= b < |rest| ==> rest[b] in rest;
        [i] + rest
  }

  /** main.py lines 238-262 in replace mode: `failed` holds the indices whose
      rendering raised; every other equation contributes its edit, in
      equation order. */
  function EditsFor(eqs: seq<Span>, base: string, failed: set<nat>): (r: seq<Edit>)
    ensures |r| == |RenderedFrom(|eqs|, failed, 0)|
  {
    var ks := RenderedFrom(|eqs|, failed, 0);
    assert forall k :: 0 <= k < |ks| ==> ks[k] in ks;
    seq(|ks|, k requires 0 <= k < |ks| => EditOf(eqs, base, ks[k]))
  }

  /** An equation contributes its edit exactly when its rendering did not
      fail: the replacement text names the image, so no other equation's
      edit can stand in for it. */
  lemma EditsForMembers(eqs: seq<Span>, base: string, failed: set<nat>, i: nat)
    requires i < |eqs|
    ensures EditOf(eqs, base, i) in EditsFor(eqs, base, failed) <==> i !in failed
  {
    if i !in failed {
      RenderedEditIn(eqs, base, failed, i);
    } else if EditOf(eqs, base, i) in EditsFor(eqs, base, failed) {
      EditInRendered(eqs, base, failed, i);
    }
  }

  lemma RenderedEditIn(eqs: seq<Span>, base: string, failed: set<nat>, i: nat)
    requires i < |eqs| && i !in failed
    ensures EditOf(eqs, base, i) in EditsFor(eqs, base, failed)
  {
    var ks := RenderedFrom(|eqs|, failed, 0);
    assert i in ks;
    var p :| 0 <= p < |ks| && ks[p] == i;
    assert EditsFor(eqs, base, failed)[p] == EditOf(eqs, base, i);
  }

  /** Only a rendered equation's edit is in the list: the edit's text names
      its image, and image names are distinct. */
  lemma EditInRendered(eqs: seq<Span>, base: string, failed: set<nat>, i: nat)
    requires i < |eqs| && EditOf(eqs, base, i) in EditsFor(eqs, base, failed)
    ensures i !in failed
  {
    var ks := RenderedFrom(|eqs|, failed, 0);
    var r := EditsFor(eqs, base, failed);
    var p :| 0 <= p < |r| && r[p] == EditOf(eqs, base, i);
    assert ks[p] in ks;
    var j := ks[p];
    assert r[p] == EditOf(eqs, base, j);
    SameEditSameIndex(eqs, base, i, j);
  }

  lemma SameEditSameIndex(eqs: seq<Span>, base: string, i: nat, j: nat)
    requires i < |eqs| && j < |eqs| && EditOf(eqs, base, i) == EditOf(eqs, base, j)
    ensures i == j
  {
    var ni, nj := Interactive.ImageName(base, i), Interactive.ImageName(base, j);
    assert ReplacementText(eqs[i].isDisplay, ni) == ReplacementText(eqs[j].isDisplay, nj);
    ReplacementTextInjective(eqs[i].isDisplay, ni, eqs[j].isDisplay, nj);
    Interactive.ImageNamesDistinct(base, i, j);
  }

  /** Python's `xs[s:e] = rep` for non-negative bounds: a bound past the end
      is clipped to it, and an end before the start inserts at the start. */
  function SliceAssign(xs: string, s: nat, e: nat, rep: string): (r: string)
    ensures s <= e <= |xs| ==> r == xs[..s] + rep + xs[e..]
    ensures s <= e <= |xs| ==> |r| == |xs| - (e - s) + |rep| && r[..s] == xs[..s] && r[s + |rep|..] == xs[e..]
    ensures s <= e <= |xs| && rep == xs[s..e] ==> r == xs
  {
    var lo := if s <= |xs| then s else |xs|;
    var hi := if e <= lo then lo else if e <= |xs| then e else |xs|;
    xs[..lo] + (rep + xs[hi..])
  }

  /** Edits that start at or after `from`, each non-empty and inside the
      text, in ascending order without overlap. */
  predicate Fits(orig: string, edits: seq<Edit>, from: nat)
    decreases |edits|
  {
    && from <= |orig|
    && (edits != [] ==>
         && from <= edits[0].start < edits[0].end <= |orig|
         && Fits(orig, edits[1..], edits[0].end))
  }

  /** The gaps of `orig` between the edited spans, from `from` on,
      interleaved with the replacement texts in ascending order. */
  function Assemble(orig: string, edits: seq<Edit>, from: nat): string
    requires Fits(orig, edits, from)
    decreases |edits|
  {
    if edits == [] then orig[from..]
    else orig[from..edits[0].start] + (edits[0].text + Assemble(orig, edits[1..], edits[0].end))
  }

  lemma {:induction false} FitsOrdered(orig: string, edits: seq<Edit>, from: nat)
    requires Fits(orig, edits, from)
    ensures forall k :: 0 <= k < |edits| ==> from <= edits[k].start < edits[k].end <= |orig|
    ensures forall k, l :: 0 <= k < l < |edits| ==> edits[k].end <= edits[l].start
    decreases |edits|
  {
    if edits != [] {
      var tail := edits[1..];
      FitsOrdered(orig, tail, edits[0].end);
      assert forall k :: 1 <= k < |edits| ==> edits[k] == tail[k - 1];
    }
  }

  /** Every suffix of fitting edits fits from its own first start. */
  lemma {:induction false} FitsFromStart(orig: string, edits: seq<Edit>, from: nat, j: nat)
    requires Fits(orig, edits, from)
    requires j < |edits|
    ensures Fits(orig, edits[j..], edits[j].start)
    decreases j
  {
    if j > 0 {
      FitsFromStart(orig, edits[1..], edits[0].end, j - 1);
      assert edits[1..][j - 1..] == edits[j..];
    }
  }

  /** The text in front of the first edit can be split off. */
  lemma FitsEarlier(orig: string, t: seq<Edit>, a: nat, b: nat)
    requires a <= b && Fits(orig, t, b)
    ensures Fits(orig, t, a)
  {
  }

  lemma AssembleRebase(orig: string, t: seq<Edit>, a: nat, b: nat)
    requires a <= b && Fits(orig, t, b)
    ensures Fits(orig, t, a)
    ensures Assemble(orig, t, a) == orig[a..b] + Assemble(orig, t, b)
  {
    FitsEarlier(orig, t, a, b);
    if t == [] {
      SplitSlice(orig, a, b, |orig|);
    } else {
      var x := t[0];
      var rest := x.text + Assemble(orig, t[1..], x.end);
      SplitSlice(orig, a, b, x.start);
      Text.ConcatAssoc(orig[a..b], orig[b..x.start], rest);
    }
  }

  lemma SplitSlice(s: string, a: nat, b: nat, z: nat)
    requires a <= b <= z <= |s|
    ensures s[a..z] == s[a..b] + s[b..z]
  {
  }

  /** Replacing every span by its own text gives the original back: the
      splice touches nothing outside the edited spans. */
  lemma {:induction false} AssembleIdentity(orig: string, edits: seq<Edit>, from: nat)
    requires Fits(orig, edits, from)
    requires forall k :: 0 <= k < |edits| && edits[k].start <= edits[k].end <= |orig| ==>
      edits[k].text == orig[edits[k].start..edits[k].end]
    ensures Assemble(orig, edits, from) == orig[from..]
    decreases |edits|
  {
    if edits != [] {
      var x := edits[0];
      AssembleIdentity(orig, edits[1..], x.end);
      assert orig[from..] == orig[from..x.start] + orig[x.start..x.end] + orig[x.end..];
    }
  }

  /** Where the original text stops being untouched after the last `k`
      edits have been applied in descending order. */
  function SplicedFrom(orig: string, edits: seq<Edit>, k: nat): nat
    requires k <= |edits|
  {
    if k == 0 then |orig| else edits[|edits| - k].start
  }

  /** `cur` is the text after applying the last `k` edits: the original up
      to the first of them, then their assembly. */
  ghost predicate SplicedUpTo(orig: string, edits: seq<Edit>, k: nat, cur: string) {
    && k <= |edits|
    && Fits(orig, edits[|edits| - k..], SplicedFrom(orig, edits, k))
    && cur == orig[..SplicedFrom(orig, edits, k)] + Assemble(orig, edits[|edits| - k..], SplicedFrom(orig, edits, k))
  }

  /** Nothing applied yet: the text is the original. */
  lemma SplicedNone(orig: string, edits: seq<Edit>)
    ensures SplicedUpTo(orig, edits, 0, orig)
  {
    assert edits[|edits|..] == [];
  }

  /** Applying the next edit, in descending order, as a slice assignment. */
  lemma SplicedStep(orig: string, edits: seq<Edit>, k: nat, cur: string, x: Edit, next: string)
    requires Fits(orig, edits, 0)
    requires k < |edits| && SplicedUpTo(orig, edits, k, cur)
    requires x == edits[|edits| - 1 - k]
    requires next == SliceAssign(cur, x.start, x.end, x.text)
    ensures SplicedUpTo(orig, edits, k + 1, next)
  {
    var n := |edits|;
    var t := edits[n - k..];
    var y := SplicedFrom(orig, edits, k);
    assert edits[n - 1 - k..] == [x] + t;
    FitsFromStart(orig, edits, 0, n - 1 - k);
    FitsFirstEnd(orig, x, t, y);
    AssembleCons(orig, x, t, y);
    var p, q := orig[..y], Assemble(orig, t, y);
    assert cur == p + q;
    SliceAssignInto(p, q, x.start, x.end, x.text);
    TakeTake(orig, y, x.start);
    assert p[x.end..] == orig[x.end..y];
    assert next == orig[..x.start] + (x.text + (orig[x.end..y] + q));
  }

  /** All edits applied: the text is their assembly over the whole original. */
  lemma SplicedAll(orig: string, edits: seq<Edit>, cur: string)
    requires Fits(orig, edits, 0)
    requires SplicedUpTo(orig, edits, |edits|, cur)
    ensures cur == Assemble(orig, edits, 0)
  {
    var y := SplicedFrom(orig, edits, |edits|);
    assert edits[0..] == edits;
    AssembleRebase(orig, edits, 0, y);
    assert orig[0..y] == orig[..y];
  }

  lemma FitsFirstEnd(orig: string, x: Edit, t: seq<Edit>, y: nat)
    requires Fits(orig, [x] + t, x.start)
    requires y == if t == [] then |orig| else t[0].start
    ensures x.end <= y && Fits(orig, t, x.end)
  {
    assert ([x] + t)[1..] == t;
  }

  lemma TakeTake(s: string, y: nat, n: nat)
    requires n <= y <= |s|
    ensures s[..y][..n] == s[..n]
  {
  }

  /** Assembling from the start of a first edit `x`. */
  lemma AssembleCons(orig: string, x: Edit, t: seq<Edit>, y: nat)
    requires Fits(orig, [x] + t, x.start)
    requires x.end <= y && Fits(orig, t, y)
    ensures Assemble(orig, [x] + t, x.start) == x.text + (orig[x.end..y] + Assemble(orig, t, y))
  {
    assert ([x] + t)[1..] == t;
    AssembleRebase(orig, t, x.end, y);
    assert orig[x.start..x.start] == [];
  }

  /** A slice assignment inside the first part of a concatenation. */
  lemma SliceAssignInto(p: string, q: string, s: nat, e: nat, rep: string)
    requires s < e <= |p|
    ensures SliceAssign(p + q, s, e, rep) == p[..s] + (rep + (p[e..] + q))
  {
    PrefixOfAppend(p, q, s);
    SuffixOfAppend(p, q, e);
  }

  lemma PrefixOfAppend(p: string, q: string, n: nat)
    requires n <= |p|
    ensures (p + q)[..n] == p[..n]
  {
  }

  lemma SuffixOfAppend(p: string, q: string, n: nat)
    requires n <= |p|
    ensures (p + q)[n..] == p[n..] + q
  {
  }

  function DescendingStart(x: Edit): int {
    -(x.start as int)
  }

  /** `replacements.sort(key=lambda x: x[0], reverse=True)`: the edits by
      descending start. On fitting edits this is the list reversed. */
  function SortDescending(orig: string, edits: seq<Edit>): (r: seq<Edit>)
    ensures multiset(r) == multiset(edits) && |r| == |edits|
    ensures Fits(orig, edits, 0) ==> r == Sorting.Reverse(edits)
  {
    var r := Sorting.SortBy(edits, DescendingStart);
    assert |r| == |edits| by {
      assert |multiset(r)| == |multiset(edits)|;
    }
    if Fits(orig, edits, 0) then
      FitsOrdered(orig, edits, 0);
      Sorting.SortByDecreasingIsReverse(edits, DescendingStart);
      r
    else r
  }

  /** Every edit of `ordered` starts at or after `n`. */
  predicate StartAtOrAfter(ordered: seq<Edit>, n: nat) {
    forall k :: 0 <= k < |ordered| ==> n <= ordered[k].start
  }

  /** The slice assignments of `ordered` applied one after another to
      `cur`. */
  function SpliceAll(cur: string, ordered: seq<Edit>): (r: string)
    ensures forall n: nat :: n <= |cur| && StartAtOrAfter(ordered, n) ==> n <= |r| && r[..n] == cur[..n]
    decreases |ordered|
  {
    if ordered == [] then cur
    else
      var x := ordered[|ordered| - 1];
      var front := ordered[..|ordered| - 1];
      var prev := SpliceAll(cur, front);
      var r := SliceAssign(prev, x.start, x.end, x.text);
      assert forall n: nat :: n <= |cur| && StartAtOrAfter(ordered, n) ==> n <= |r| && r[..n] == cur[..n] by {
        forall n: nat | n <= |cur| && StartAtOrAfter(ordered, n)
          ensures n <= |r| && r[..n] == cur[..n]
        {
          assert StartAtOrAfter(front, n) by {
            assert forall k :: 0 <= k < |front| ==> front[k] == ordered[k];
          }
          assert n <= x.start;
          SliceAssignKeepsPrefix(prev, x.start, x.end, x.text, n);
        }
      }
      r
  }

  /** A slice assignment at or after `n` leaves the first `n` characters. */
  lemma SliceAssignKeepsPrefix(xs: string, s: nat, e: nat, rep: string, n: nat)
    requires n <= s && n <= |xs|
    ensures n <= |SliceAssign(xs, s, e, rep)| && SliceAssign(xs, s, e, rep)[..n] == xs[..n]
  {
  }

  /** Applying the last `k` fitting edits, last one first. */
  lemma {:induction false} SpliceAllDescending(orig: string, edits: seq<Edit>, k: nat)
    requires Fits(orig, edits, 0)
    requires k <= |edits|
    ensures |Sorting.Reverse(edits)| == |edits|
    ensures SplicedUpTo(orig, edits, k, SpliceAll(orig, Sorting.Reverse(edits)[..k]))
    decreases k
  {
    var rs := Sorting.Reverse(edits);
    if k == 0 {
      SplicedNone(orig, edits);
      assert rs[..0] == [];
    } else {
      SpliceAllDescending(orig, edits, k - 1);
      assert rs[..k][..k - 1] == rs[..k - 1];
      SplicedStep(orig, edits, k - 1, SpliceAll(orig, rs[..k - 1]), rs[k - 1], SpliceAll(orig, rs[..k]));
    }
  }

  /** The descending splice of edits that fit the document without overlap
      keeps every gap between them and puts each replacement text where its
      span was. */
  lemma SpliceDescendingAssembles(orig: string, edits: seq<Edit>)
    requires Fits(orig, edits, 0)
    ensures SpliceAll(orig, SortDescending(orig, edits)) == Assemble(orig, edits, 0)
  {
    var rs := Sorting.Reverse(edits);
    SpliceAllDescending(orig, edits, |edits|);
    assert rs[..|edits|] == rs;
    SplicedAll(orig, edits, SpliceAll(orig, rs));
  }

  /** main.py lines 267-277: sort the edits by start, descending, and apply
      each as a slice assignment, counting them. On edits that fit the
      document without overlap the result is the original gaps interleaved
      with the replacement texts. */
  method ApplyReplacements(original: string, edits: seq<Edit>) returns (finalContent: string, replacementsMade: nat)
    ensures replacementsMade == |edits|
    ensures finalContent == SpliceAll(original, SortDescending(original, edits))
    ensures Fits(original, edits, 0) ==> finalContent == Assemble(original, edits, 0)
  {
    var finalChars := original;
    var ordered := SortDescending(original, edits);
    replacementsMade := 0;
    var k := 0;
    while k < |ordered|
      invariant 0 <= k <= |ordered| && replacementsMade == k
      invariant finalChars == SpliceAll(original, ordered[..k])
    {
      var x := ordered[k];
      assert ordered[..k + 1][..k] == ordered[..k];
      finalChars := SliceAssign(finalChars, x.start, x.end, x.text);
      replacementsMade := replacementsMade + 1;
      k := k + 1;
    }
    assert ordered[..k] == ordered;
    if Fits(original, edits, 0) {
      SpliceDescendingAssembles(original, edits);
    }
    finalContent := finalChars;
  }

  /** Edits inside the text, in ascending order without overlap, fit. */
  lemma {:induction false} OrderedFits(orig: string, edits: seq<Edit>, from: nat)
    requires from <= |orig|
    requires forall k :: 0 <= k < |edits| ==> from <= edits[k].start < edits[k].end <= |orig|
    requires forall k, l :: 0 <= k < l < |edits| ==> edits[k].end <= edits[l].start
    ensures Fits(orig, edits, from)
    decreases |edits|
  {
    if edits != [] {
      var t := edits[1..];
      assert forall k :: 0 <= k < |t| ==> t[k] == edits[k + 1];
      OrderedFits(orig, t, edits[0].end);
    }
  }

  /** Equations in ascending order give edits that fit the document they
      were found in, whichever renderings failed. */
  lemma AscendingEditsFit(c: string, eqs: seq<Span>, base: string, failed: set<nat>)
    requires Ascending(eqs)
    requires forall k :: 0 <= k < |eqs| ==> IsEquation(c, eqs[k])
    ensures Fits(c, EditsFor(eqs, base, failed), 0)
  {
    var ks := RenderedFrom(|eqs|, failed, 0);
    var r := EditsFor(eqs, base, failed);
    forall k | 0 <= k < |r|
      ensures r[k].start < r[k].end <= |c|
    {
      assert ks[k] in ks;
      var sp := eqs[ks[k]];
      Scanner.MatchBounds(c, sp.start, sp.end, KindOf(sp.isDisplay));
    }
    forall k, l | 0 <= k < l < |r|
      ensures r[k].end <= r[l].start
    {
      assert ks[k] in ks && ks[l] in ks;
    }
    OrderedFits(c, r, 0);
  }

  /** Replace mode over the corrected extractor: the descending splice puts
      each replacement text where its equation was and keeps every gap. */
  lemma CorrectedReplaceAssembles(c: string, base: string, failed: set<nat>)
    ensures var edits := EditsFor(ExtractEquationsDisjoint(c), base, failed);
            Fits(c, edits, 0) && SpliceAll(c, SortDescending(c, edits)) == Assemble(c, edits, 0)
  {
    var edits := EditsFor(ExtractEquationsDisjoint(c), base, failed);
    AscendingEditsFit(c, ExtractEquationsDisjoint(c), base, failed);
    SpliceDescendingAssembles(c, edits);
  }

  /** Two rendered equations that share a position give edits that do not fit. */
  lemma OverlapBlocksFit(c: string, eqs: seq<Span>, base: string, failed: set<nat>, i: nat, j: nat)
    requires i < |eqs| && j < |eqs| && i != j
    requires i !in failed && j !in failed
    requires !Disjoint(eqs[i], eqs[j])
    ensures !Fits(c, EditsFor(eqs, base, failed), 0)
  {
    var edits := EditsFor(eqs, base, failed);
    var ks := RenderedFrom(|eqs|, failed, 0);
    assert i in ks && j in ks;
    var p :| 0 <= p < |ks| && ks[p] == i;
    var q :| 0 <= q < |ks| && ks[q] == j;
    assert edits[p] == EditOf(eqs, base, i) && edits[q] == EditOf(eqs, base, j);
    OverlapNotFits(c, edits, p, q);
  }

  /** Two distinct edits that share a position rule out `Fits`. */
  lemma OverlapNotFits(c: string, edits: seq<Edit>, p: nat, q: nat)
    requires p < |edits| && q < |edits| && p != q
    requires edits[p].start < edits[q].end && edits[q].start < edits[p].end
    ensures !Fits(c, edits, 0)
  {
    if Fits(c, edits, 0) {
      FitsOrdered(c, edits, 0);
    }
  }

  /** As written, the entries of `$a$$$b$$` give edits that overlap, so the
      splice guarantee does not apply to them even when every rendering
      succeeds. */
  lemma AdjacentEditsDoNotFit(base: string)
    ensures !Fits(Adjacent, EditsFor(ExtractEquationsWithSpans(Adjacent), base, {}), 0)
  {
    var eqs := ExtractEquationsWithSpans(Adjacent);
    ContainmentAdmitsOverlap();
    var i :| 0 <= i < |eqs| && eqs[i] == Span(0, 3, "$a$", false);
    var j :| 0 <= j < |eqs| && eqs[j] == Span(2, 8, "$$$b$$", true);
    OverlapBlocksFit(Adjacent, eqs, base, {}, i, j);
  }

  /** As written, replace mode on `$a$$$b$$` with every rendering
      successful: the display picture goes in first, over offsets 2 to 8;
      then the inline picture overwrites offsets 0 to 3 of the new text,
      which by then hold `$a` and the display picture's leading newline.
      Both pictures survive, but that newline is lost. */
  lemma AdjacentSpliceDropsNewline(base: string)
    ensures var ri := ReplacementText(false, Interactive.ImageName(base, 0));
            var rd := ReplacementText(true, Interactive.ImageName(base, 1));
            var edits := EditsFor(ExtractEquationsWithSpans(Adjacent), base, {});
            && edits == [Edit(0, 3, ri), Edit(2, 8, rd)]
            && |rd| > 0 && rd[0] == '\n'
            && SpliceAll(Adjacent, SortDescending(Adjacent, edits)) == ri + rd[1..]
  {
    var ri := ReplacementText(false, Interactive.ImageName(base, 0));
    var rd := ReplacementText(true, Interactive.ImageName(base, 1));
    AdjacentExtracted();
    EditsForPair(ExtractEquationsWithSpans(Adjacent), base);
    SpliceOverlapping(Adjacent, ri, rd);
  }

  /** With nothing failed, two equations give their two edits in order. */
  lemma EditsForPair(eqs: seq<Span>, base: string)
    requires |eqs| == 2
    ensures EditsFor(eqs, base, {}) == [EditOf(eqs, base, 0), EditOf(eqs, base, 1)]
  {
    RenderedBoth();
    var r := EditsFor(eqs, base, {});
    assert |r| == 2 && r[0] == EditOf(eqs, base, 0) && r[1] == EditOf(eqs, base, 1);
  }

  lemma RenderedBoth()
    ensures RenderedFrom(2, {}, 0) == [0, 1]
  {
    assert RenderedFrom(2, {}, 2) == [];
    assert RenderedFrom(2, {}, 1) == [1];
  }

  /** The descending splice of an edit over offsets 2 to 8 and one over
      offsets 0 to 3 of an eight-character text. */
  lemma SpliceOverlapping(c: string, ri: string, rd: string)
    requires |c| == 8 && |rd| > 0
    ensures SpliceAll(c, SortDescending(c, [Edit(0, 3, ri), Edit(2, 8, rd)])) == ri + rd[1..]
  {
    var e0 := Edit(0, 3, ri);
    var e1 := Edit(2, 8, rd);
    Sorting.SortByDecreasingIsReverse([e0, e1], DescendingStart);
    assert Sorting.Reverse([e0, e1]) == [e1, e0];
    assert SortDescending(c, [e0, e1]) == [e1, e0];
    SpliceTwo(c, e1, e0);
    OverwriteFront(c, ri, rd);
  }

  lemma SpliceTwo(cur: string, x: Edit, y: Edit)
    ensures SpliceAll(cur, [x, y]) == SliceAssign(SliceAssign(cur, x.start, x.end, x.text), y.start, y.end, y.text)
  {
    assert [x, y][..1] == [x] && [x][..0] == [];
    assert SpliceAll(cur, []) == cur;
    assert SpliceAll(cur, [x]) == SliceAssign(cur, x.start, x.end, x.text);
  }

  /** The display picture over offsets 2 to 8, then the inline picture over
      offsets 0 to 3 of the result. */
  lemma OverwriteFront(c: string, ri: string, rd: string)
    requires |c| == 8 && |rd| > 0
    ensures SliceAssign(SliceAssign(c, 2, 8, rd), 0, 3, ri) == ri + rd[1..]
  {
    var t := SliceAssign(c, 2, 8, rd);
    assert t == c[..2] + rd;
    assert t[3..] == rd[1..];
  }
}

=== FILE: text.dfy ===
/** String helpers shared by the extractors and the preamble patcher:
    Python's `str.startswith`, `in`, `str.find` and `str.replace` over `seq<char>`. */
module Text {
  import opened Options

  /** `t` occurs in `s` at index `i`. */
  predicate OccursAt(s: string, t: string, i: nat) {
    i + |t| <= |s| && s[i..i + |t|] == t
  }

  /** Python's `s.startswith(t)`. */
  predicate StartsWith(s: string, t: string) {
    OccursAt(s, t, 0)
  }

  /** Python's `s.endswith(t)`. */
  predicate EndsWith(s: string, t: string) {
    |t| <= |s| && s[|s| - |t|..] == t
  }

  /** Python's `s.find(t, i)`, as an option: the first index at or after `i`
      where `t` occurs. */
  function IndexFrom(s: string, t: string, i: nat): (r: Option<nat>)
    ensures r.Some? ==> i <= r.value && OccursAt(s, t, r.value)
    ensures r.Some? ==> forall j :: i <= j < r.value ==> !OccursAt(s, t, j)
    ensures r.None? ==> forall j :: i <= j ==> !OccursAt(s, t, j)
    decreases |s| - i
  {
    if i + |t| > |s| then None
    else if OccursAt(s, t, i) then Some(i)
    else IndexFrom(s, t, i + 1)
  }

  /** `find` reports the leftmost occurrence at or after `i`. */
  lemma IndexFromLeftmost(s: string, t: string, i: nat, j: nat)
    requires i <= j && OccursAt(s, t, j)
    requires forall k :: i <= k < j ==> !OccursAt(s, t, k)
    ensures IndexFrom(s, t, i) == Some(j)
  {
    var r := IndexFrom(s, t, i);
    assert r.Some? ==> r.value <= j;
  }

  /** Python's `t in s`. */
  predicate Contains(s: string, t: string) {
    IndexFrom(s, t, 0).Some?
  }

  lemma OccursAtContains(s: string, t: string, j: nat)
    requires OccursAt(s, t, j)
    ensures Contains(s, t)
  {
  }

  /** Python's `s.replace(pat, rep)`: scanning left to right, an occurrence
      of `pat` is replaced by `rep` and skipped, any other character is
      kept. */
  function Replace(s: string, pat: string, rep: string): (r: string)
    requires |pat| > 0
    ensures |rep| <= |pat| ==> |r| <= |s|
    decreases |s|
  {
    if |s| < |pat| then s
    else if s[..|pat|] == pat then rep + Replace(s[|pat|..], pat, rep)
    else [s[0]] + Replace(s[1..], pat, rep)
  }

  /** Where `pat` does not occur, replacing it changes nothing. */
  lemma {:induction false} ReplaceAbsent(s: string, pat: string, rep: string)
    requires |pat| > 0
    requires !Contains(s, pat)
    ensures Replace(s, pat, rep) == s
    decreases |s|
  {
    if |s| >= |pat| {
      assert !OccursAt(s, pat, 0);
      ContainsTail(s, pat);
      ReplaceAbsent(s[1..], pat, rep);
    }
  }

  /** `str.replace` rewrites the leftmost occurrence of `pat` and carries on
      just past it; with `ReplaceAbsent` this pins the operation down. */
  lemma {:induction false} ReplaceAtFirst(s: string, pat: string, rep: string, j: nat)
    requires |pat| > 0
    requires IndexFrom(s, pat, 0) == Some(j)
    ensures j + |pat| <= |s|
    ensures Replace(s, pat, rep) == s[..j] + rep + Replace(s[j + |pat|..], pat, rep)
    decreases j
  {
    if j == 0 {
      ReplaceAtZero(s, pat, rep);
    } else {
      var t := s[1..];
      var i: nat := j - 1;
      IndexFromTail(s, pat, j);
      ReplaceAtFirst(t, pat, rep, i);
      ReplaceSkip(s, pat, rep, j);
      Regroup(s, t, i, j, |pat|);
      var u, v := t[i + |pat|..], s[j + |pat|..];
      assert u == v;
      Chain(Replace(s, pat, rep), s[0], Replace(t, pat, rep), t[..i], rep,
            Replace(u, pat, rep), Replace(v, pat, rep), s[..j]);
    }
  }

  lemma ReplaceAtZero(s: string, pat: string, rep: string)
    requires |pat| > 0 && OccursAt(s, pat, 0)
    ensures Replace(s, pat, rep) == s[..0] + rep + Replace(s[|pat|..], pat, rep)
  {
    assert s[..|pat|] == pat;
    var w := s[|pat|..];
    assert Replace(s, pat, rep) == rep + Replace(w, pat, rep);
    EmptyFront(s[..0], rep, Replace(w, pat, rep));
  }

  /** Dropping an empty front piece. */
  lemma EmptyFront(e: string, a: string, b: string)
    requires e == []
    ensures e + a + b == a + b
  {
  }

  /** A first occurrence past index 0 is one index earlier in the tail. */
  lemma IndexFromTail(s: string, t: string, j: nat)
    requires 0 < j && IndexFrom(s, t, 0) == Some(j)
    ensures |s| > 0 && IndexFrom(s[1..], t, 0) == Some(j - 1)
  {
    ShiftOccurrence(s, t, j - 1);
    forall k: nat | k < j - 1
      ensures !OccursAt(s[1..], t, k)
    {
      ShiftOccurrence(s, t, k);
    }
    IndexFromLeftmost(s[1..], t, 0, j - 1);
  }

  /** Without an occurrence at index 0 the first character is kept. */
  lemma ReplaceSkip(s: string, pat: string, rep: string, j: nat)
    requires |pat| > 0 && 0 < j && IndexFrom(s, pat, 0) == Some(j)
    ensures |s| > 0 && Replace(s, pat, rep) == [s[0]] + Replace(s[1..], pat, rep)
  {
    assert !OccursAt(s, pat, 0);
  }

  /** Sequence algebra for the inductive step of `ReplaceAtFirst`, stated
      over plain strings so no `Replace` term is unfolded. */
  lemma Chain(rs: string, c: char, rt: string, a: string, rep: string, x: string, y: string, pre: string)
    requires rs == [c] + rt && rt == a + rep + x && x == y && [c] + a == pre
    ensures rs == pre + rep + y
  {
  }

  lemma Regroup(s: string, t: string, i: nat, j: nat, n: nat)
    requires i + 1 == j && j + n <= |s| && t == s[1..]
    ensures t[i + n..] == s[j + n..]
    ensures [s[0]] + t[..i] == s[..j]
  {
  }

  /** Replacing an occurring pattern by something shorter shortens the text. */
  lemma ReplaceShrinks(s: string, pat: string, rep: string)
    requires |rep| < |pat|
    requires Contains(s, pat)
    ensures |Replace(s, pat, rep)| < |s|
  {
    var j := IndexFrom(s, pat, 0).value;
    ReplaceAtFirst(s, pat, rep, j);
  }

  lemma InsertedOccurs(a: string, t: string, b: string)
    ensures Contains(a + t + b, t)
  {
    assert (a + t + b)[|a|..|a| + |t|] == t;
    OccursAtContains(a + t + b, t, |a|);
  }

  /** Replacing `pat` by itself gives the text back. */
  lemma {:induction false} ReplaceSelf(s: string, pat: string)
    requires |pat| > 0
    ensures Replace(s, pat, pat) == s
    decreases |s|
  {
    if |s| >= |pat| {
      if s[..|pat|] == pat {
        ReplaceSelf(s[|pat|..], pat);
        assert s == s[..|pat|] + s[|pat|..];
      } else {
        ReplaceSelf(s[1..], pat);
        assert s == [s[0]] + s[1..];
      }
    }
  }

  /** An occurrence after the first character is an occurrence. */
  lemma ContainsTail(s: string, t: string)
    requires |s| > 0
    ensures Contains(s[1..], t) ==> Contains(s, t)
  {
    if Contains(s[1..], t) {
      var j := IndexFrom(s[1..], t, 0).value;
      ShiftOccurrence(s, t, j);
      OccursAtContains(s, t, j + 1);
    }
  }

  lemma ShiftOccurrence(s: string, t: string, i: nat)
    requires 0 < |s|
    ensures OccursAt(s[1..], t, i) <==> OccursAt(s, t, i + 1)
  {
    if i + |t| <= |s[1..]| {
      assert s[1..][i..i + |t|] == s[i + 1..i + 1 + |t|];
    }
  }

  /** Sequence algebra shared by the modules below. */
  lemma ConcatAssoc<T>(a: seq<T>, b: seq<T>, c: seq<T>)
    ensures (a + b) + c == a + (b + c)
  {
  }

  lemma ConcatRegroup<T>(a: seq<T>, b: seq<T>, h: seq<T>, r: seq<T>)
    ensures (a + (b + h)) + r == (a + b) + (h + r)
  {
  }

  /** Equal texts with the same frame have the same middle. */
  lemma StripAround<T>(a: seq<T>, x: seq<T>, y: seq<T>, b: seq<T>)
    requires a + x + b == a + y + b
    ensures x == y
  {
    assert |x| == |y|;
    assert x == (a + x + b)[|a|..|a| + |x|];
    assert y == (a + y + b)[|a|..|a| + |y|];
  }
}
